=== FILE: README.md ===
# Voice intent recognizer: classifier and session engine

This project models the logic of `voice_intent.py`, a small voice-control
front-end. A speech recognizer delivers rolling partial transcripts and
final transcripts. Each transcript is classified into one of five intents:
START, STOP, PAUSE, EXIT or OTHER. A loop then decides which intents are
announced as `HEARD: "<text>" -> INTENT: <intent>` lines and when the
session ends.

The model has two parts.

- **The classifier.**
  - `normalize` is modelled as `TextNormal.Normalize`: lower-casing, blanking
    every character outside `[a-z0-9\s']`, collapsing whitespace runs, then
    `strip()`.
  - The four regex tables are expanded into lists of literal phrases, with
    `\b<phrase>\b` searches, in `Phrases`.
  - `resolve_intent` is `Intents.Classify`.
- **The session engine.** The body of `main`'s `while True` loop becomes a
  pure step, `Session.Step`.
  - It maps the state (`last_intent`, `last_activity_ts`, `last_emit_ts`)
    and one event to a new state, an optional announcement and an optional
    reason to stop.
  - An event is a final result, a partial result or an empty poll of the
    audio queue.
  - `EventLoop.Drive` folds the step over a sequence of events and stops at
    the first `break`.
  - Trace properties are proved about that fold: OTHER de-duplication,
    debouncing of partials, how the loop ends, and that nothing is processed
    after it ends.

Times are integer milliseconds. The debounce window of 0.6 s is 600, and
the default silence timeout of 2.0 s is 2000. The source's strict
comparisons (`>`) are kept as they are.

Modules, one file each:

- `wrappers.dfy`: `Option`.
- `text_normal.dfy`: the normalizer and `str.strip()`.
- `phrases.dfy`: word boundaries, phrase search, the pattern tables.
- `intents.dfy`: the `Intent` datatype and `resolve_intent`.
- `intent_examples.dfy`: worked classifications.
- `session.dfy`: the one-turn step.
- `event_loop.dfy`: the loop as a fold, with the trace properties.
- `scenarios.dfy`: short end-to-end runs.
- `silence.dfy`: the silence timeout as written and as its help text describes it.

Three details of the code are easy to misread; the model follows the code
in all three.

- **Blank versus garbage.** The emptiness test is made on the raw transcript
  after `.strip()`, not on the normalized text. So a final result of "!!!"
  is not ignored: it counts as activity, classifies as OTHER, and is
  announced when the intent before it was not OTHER
  (`Scenarios.PunctuationIsActivity`).
- **OTHER on a final result.** The code sets `last_intent = "OTHER"` only in
  the branch that announces OTHER. Setting it in both branches would give
  the same state, because in the other branch `last_intent` already is
  OTHER. `Session.Decide` follows the code.
- **What the silence timeout measures.** It fires only on an empty poll of
  the audio queue, that is, when audio stops arriving, not when speech
  stops. Blank transcripts from silent audio never reach the test
  (`Silence.BlanksNeverTimeOut`; see "## Findings").

## Model

| member | source | states |
|---|---|---|
| TextNormal.Lower | voice_intent.py:39 | `text.lower()` keeps the length and lowers each ASCII capital by 32 code points, leaving every other character alone |
| TextNormal.Scrub | voice_intent.py:40 | the substitution keeps the length; characters of `[a-z0-9']` and whitespace stay, every other character becomes a space |
| TextNormal.Collapse | voice_intent.py:41 | `re.sub(r"\s+", " ", ...)` maps "" to ""; it never leaves two spaces in a row and leaves no whitespace but the plain space; it starts with a space exactly when the input starts with whitespace, and ends with one exactly when the input ends with whitespace; on scrubbed input it leaves only `[a-z0-9']` and spaces |
| TextNormal.CollapseWords | voice_intent.py:41 | replacing each whitespace run by one space keeps the words (the maximal runs of non-whitespace) exactly, in order |
| TextNormal.StripJoins | voice_intent.py:41 | on text with single plain spaces, `.strip()` gives its words joined by one space each |
| TextNormal.TidyWords | voice_intent.py:41 | `re.sub(r"\s+", " ", y).strip()` is the words of y joined by single spaces, so every space of the result stands where the input had whitespace between two words |
| TextNormal.StripBounds | voice_intent.py:41 | `.strip()` returns the slice of the input between its leading and its trailing whitespace, and what it cuts off on either side is all whitespace |
| TextNormal.Strip | voice_intent.py:41 | a non-empty result of `.strip()` neither starts nor ends with whitespace |
| TextNormal.StripEmpty | voice_intent.py:142-143 | a transcript strips to the empty string exactly when it is all whitespace, the test `if not text` |
| TextNormal.NormalizeShape | voice_intent.py:38-42 | `normalize` returns only `[a-z0-9']` and single inner spaces, with no space at either end; it keeps exactly the `[a-z0-9']` characters of the lower-cased input, in order; the result is empty exactly when there are none, so empty and all-punctuation inputs give "" |
| TextNormal.Normalize | voice_intent.py:38-42 | `normalize` as the three passes in the source's order; it has no `ensures` of its own: what it promises is stated by `TextNormal.NormalizeShape` and `TextNormal.NormalizeWords` |
| TextNormal.NormalizeWords | voice_intent.py:38-42 | `normalize` is the words of the lower-cased, scrubbed text joined by single spaces: "stop-listening" becomes "stop listening" |
| TextNormal.NormalFixed | voice_intent.py:38-42 | a string already in that normal form is returned unchanged |
| TextNormal.NormalizeIdempotent | voice_intent.py:38-42 | normalizing twice is normalizing once |
| TextNormal.NormalizeStrip | voice_intent.py:142-150 | normalizing the stripped transcript gives the same text as normalizing the raw one |
| TextNormal.NormalizeSlice | voice_intent.py:38-42 | cutting whitespace off either end of a text does not change its normal form |
| Phrases.StartPhrases | voice_intent.py:14-36 | the four tables `StartPhrases`, `StopPhrases`, `PausePhrases` and `ExitPhrases` (12, 17, 10 and 16 phrases) are `_START_PATTERNS`, `_STOP_PATTERNS`, `_PAUSE_PATTERNS` and `_EXIT_PATTERNS`, with each `\b<phrase>\b` pattern written as its literal phrase and each alternation such as `(?:session or process)`, the optional `(?:the )?` and `\s*` written out as the literal phrases it accepts on normalized text |
| Phrases.SearchFrom | voice_intent.py:46 | the scan finds a word-bounded match at or after the start index exactly when one exists |
| Phrases.Search | voice_intent.py:46 | `re.search(r"\b<phrase>\b", t)` succeeds exactly when the phrase occurs in t with a word boundary at both ends |
| Phrases.MatchAny | voice_intent.py:44-48 | `match_any` is true exactly when some phrase of the list occurs in the text |
| Phrases.WholeWordOnNormal | voice_intent.py:14-36 | on normalized text a phrase of the tables matches exactly where it is bounded on each side by the text's end, a space or an apostrophe |
| Intents.TablesArePhrases | voice_intent.py:14-36 | every phrase of the four tables is lower-case letters and spaces, beginning and ending with a letter |
| Intents.HeardOnNormal | voice_intent.py:44-48 | on normalized text a group is heard exactly when one of its phrases stands in the text with a space, an apostrophe or an end of the text on each side |
| Intents.Resolve | voice_intent.py:56-64 | the group tests return a group that is heard; they return OTHER exactly when no group is heard; no heard group outranks the result (EXIT > STOP > PAUSE > START) |
| Intents.NothingHeard | voice_intent.py:64 | when none of the four groups matches, no intent is heard at all |
| Intents.Classify | voice_intent.py:50-64 | `resolve_intent` returns the highest-ranked group heard in the normalized text, and OTHER exactly when no group's phrase matches |
| Intents.ClassifyNormalized | voice_intent.py:55 | classifying the normalized text gives the same intent as classifying the raw text |
| Intents.ClassifyStripped | voice_intent.py:142-150 | the loop classifies the stripped transcript, which gives the same intent as classifying the raw transcript |
| Intents.HeardBy | voice_intent.py:44-48 | one matching phrase of a group is enough for the group to be heard |
| Intents.ClassifyNormal | voice_intent.py:55 | text that is already normal is classified as it stands |
| Intents.ExitFirst | voice_intent.py:56-57 | any EXIT match yields EXIT, whatever else matches |
| Intents.StopSecond | voice_intent.py:58-59 | without an EXIT match, a STOP match yields STOP, beating PAUSE and START |
| Intents.PauseThird | voice_intent.py:60-61 | without EXIT or STOP, a PAUSE match yields PAUSE, beating START |
| Intents.StartLast | voice_intent.py:62-63 | with no EXIT, STOP or PAUSE match, a START match yields START (that START needs those three to be absent follows from the rank clause of `Intents.Resolve`) |
| IntentExamples.StopListeningIsExit | voice_intent.py:32-59 | "stop listening" also contains the STOP phrase "stop", yet it classifies as EXIT |
| IntentExamples.QuitAsrIsExit | voice_intent.py:20-59 | "quit asr" also contains the STOP phrase "quit", yet it classifies as EXIT |
| IntentExamples.QuitIsStop | voice_intent.py:20-59 | plain "quit" classifies as STOP |
| IntentExamples.QuitNotExit | voice_intent.py:32-36 | no EXIT phrase occurs in "quit" |
| IntentExamples.EndIsWholeWord | voice_intent.py:21 | `\bend\b` does not match inside "ended" or "weekend", but it matches in "end's" |
| IntentExamples.EndsIsStop | voice_intent.py:20-59 | "end's" is its own normal form, apostrophe included, and classifies as STOP |
| IntentExamples.ExitIsExit | voice_intent.py:32-57 | "exit" classifies as EXIT |
| IntentExamples.StopIsStop | voice_intent.py:20-59 | "stop" classifies as STOP |
| IntentExamples.LongPhraseAbsent | voice_intent.py:46 | a phrase longer than the text cannot match in it |
| IntentExamples.NothingOccursInEmpty | voice_intent.py:44-48 | no group is heard in the empty text |
| IntentExamples.BangsNormalizeToEmpty | voice_intent.py:38-42 | "!!!" normalizes to the empty string |
| IntentExamples.BangsAreOther | voice_intent.py:50-64 | "!!!" classifies as OTHER |
| Session.Settings | voice_intent.py:104-125 | `main` runs with a debounce window of 600 ms and the given silence timeout |
| Session.Init | voice_intent.py:122-124 | before the loop no intent has been seen, the last activity is the start time and the last emission is at 0 |
| Session.Perceive | voice_intent.py:129-150 | an empty poll is seen as a timed poll; a transcript is blank exactly when it is all whitespace; otherwise it is seen as its stripped, non-empty text with the intent of the raw text |
| Session.Decide | voice_intent.py:146-185 | the state records the last announced intent, and `last_emit_ts` for non-OTHER intents only; the loop ends by voice exactly when EXIT is announced; a final transcript is announced exactly when it is not OTHER or the intent before was not OTHER; a partial one exactly when it is not OTHER and the debounce window has passed strictly or the intent changed; a line repeats the transcript, intent and time; a poll ends the loop exactly on a strict timeout; blanks change nothing |
| Session.Step | voice_intent.py:128-186 | one turn: a poll changes nothing and stops exactly when `timeout > 0` and the silence exceeds it strictly; a blank transcript is ignored; any other transcript sets the last activity; a final result is announced unless it is OTHER after OTHER; a partial result is announced iff it is not OTHER and the debounce window has passed strictly or the intent changed; an announced EXIT ends the loop |
| EventLoop.Drive | voice_intent.py:128-186 | the loop over the events it receives, stopping at the first `break`; its own contract says every line printed reports one of the events (its stripped text, intent, time and kind) and that there are no more lines than events; what it computes is stated by `EventLoop.DriveFolds` and the trace lemmas below |
| EventLoop.DriveFolds | voice_intent.py:128-186 | running the loop on events is folding the decisions over what was perceived of each event |
| EventLoop.DriveHalts | voice_intent.py:155-185 | after a `break`, later events change nothing: not the state, not the lines, not the reason |
| EventLoop.DriveAppend | voice_intent.py:128-186 | running two batches of events one after the other is running their concatenation, as long as the first batch does not end the loop |
| EventLoop.DriveRemembers | voice_intent.py:150-180 | after any run, `last_intent` is the intent of the last line (or the old value if none was printed), and `last_emit_ts` is the time of the last non-OTHER line |
| EventLoop.OtherNeverRepeats | voice_intent.py:158-162 | two consecutive lines are never both OTHER, and the first line is not OTHER if the intent before the run was |
| EventLoop.PartialsDebounced | voice_intent.py:174-180 | no partial line says OTHER; a partial line that repeats the previous line's intent comes strictly more than the debounce window after it |
| EventLoop.ExitEndsRun | voice_intent.py:155-185 | EXIT is only ever the last line, and the loop ends by voice exactly when its last line is EXIT |
| EventLoop.SilenceEndsRun | voice_intent.py:130-135 | the loop ends for silence exactly when, with a positive timeout, some empty poll taken while the loop is still going comes strictly more than the timeout after the last activity |
| EventLoop.SilenceStops | voice_intent.py:130-135 | the loop ends at the first such poll, keeping the state and the lines printed before it |
| EventLoop.NoTimeoutNoSilenceStop | voice_intent.py:132 | with a timeout of 0 (or less) the loop never ends for silence |
| EventLoop.BlanksIgnored | voice_intent.py:142-168 | removing every transcript that is blank after stripping does not change the run |
| Scenarios.FinalAnnounced | voice_intent.py:150-157 | a non-OTHER final result is announced, sets both the intent and the emission time, and ends the loop if it is EXIT |
| Scenarios.FinalOtherAnnounced | voice_intent.py:158-162 | an OTHER final result after a different intent is announced; it leaves `last_emit_ts` alone |
| Scenarios.FinalOtherRepeated | voice_intent.py:158-162 | an OTHER final result after OTHER is not announced; only the activity time changes |
| Scenarios.PartialAnnounced | voice_intent.py:174-185 | a fresh non-OTHER partial result is announced and updates both fields |
| Scenarios.PartialSuppressed | voice_intent.py:174-177 | an OTHER or stale partial result is not announced; only the activity time changes |
| Scenarios.OtherAnnouncedOnce | voice_intent.py:150-162 | START, then two unmatched finals: the lines are START and one OTHER |
| Scenarios.RollingPartialsDebounced | voice_intent.py:174-180 | rolling partials such as "sto", "stop", "stop the" inside the window: only the first STOP is announced |
| Scenarios.FreshSessionRolling | voice_intent.py:122-180 | from the initial state and any `--silence-timeout`: an unmatched partial, a STOP partial at 400 ms and another exactly 600 ms later print one STOP line, since the window comparison is strict |
| Scenarios.DefaultSilence | voice_intent.py:104-135 | with the default timeout of 2 s and two empty queue polls, the poll at 2000 ms alone leaves the session running and the one at 2001 ms ends the session for silence, with no line printed |
| Scenarios.RepeatAfterWindow | voice_intent.py:174-180 | after a partial announcement, the next turn on a second partial with the same intent, d later, announces it iff d exceeds the window; a different intent is always announced |
| Scenarios.ExitPartialEnds | voice_intent.py:174-185 | an announced EXIT partial prints one line and ends the loop, so a partial after it is never looked at |
| Scenarios.RepeatRun | voice_intent.py:174-180 | when the first of two partials is announced and is not EXIT, the run prints its line first, and prints a second line exactly when the rule of `RepeatAfterWindow` announces the second partial |
| Scenarios.ExitEndsSession | voice_intent.py:150-157 | a final EXIT is announced and ends the session; later events are never looked at |
| Scenarios.SayingExitEndsSession | voice_intent.py:150-157 | saying "exit" prints one EXIT line and ends the session |
| Silence.BlanksNeverTimeOut | voice_intent.py:140-168 | however many blank transcripts arrive, and however late, the loop as written prints nothing, keeps its state and does not end |
| Silence.SilentMinute | voice_intent.py:104-168 | with the default timeout, an empty partial after 30 s and an empty final after 60 s leave the session running |
| Silence.HeardStep | voice_intent.py:105-135 | the turn the help text describes: a turn in which nothing is said (an empty poll or a blank transcript) keeps the state, prints nothing, and ends the loop exactly when the positive timeout has strictly run out; every other turn is the turn as written |
| Silence.HeardIsHushed | voice_intent.py:128-186 | that loop is the loop as written run on the events with each blank transcript read as an empty poll at the same time, so every trace lemma about `EventLoop.Drive` holds of it |
| Silence.SilenceTimesOut | voice_intent.py:105-135 | when nothing is said, that loop prints nothing, keeps its state, and ends exactly when some turn comes more than the positive timeout after the last activity |
| Silence.SilentMinuteEnds | voice_intent.py:104-135 | the same silent minute ends that session for silence |
| Scenarios.PunctuationIsActivity | voice_intent.py:140-162 | a final "!!!" counts as activity, classifies as OTHER, and is announced iff the intent before was not OTHER |

## Left out

- `audio_stream` and the audio thread and queue hand-off: this is I/O and concurrency. The model sees only what the loop takes off the queue: a final result, a partial result, or an empty poll (`Idle`).
- The Vosk recognizer (`Model`, `KaldiRecognizer`, `AcceptWaveform`, `Result`, `PartialResult`) and JSON decoding: these are calls into a foreign library. The recognizer is reduced to the `Final` and `Partial` events it produces. A missing `"text"`/`"partial"` key gives "", which is the same as an event with empty text.
- `pick_samplerate`: it queries audio hardware, and nothing in the decision logic depends on the sample rate.
- Argument parsing, the banner, the `print`s of `HEARD` lines and exit messages, and `time.strftime`: `Notice` carries the text, intent and time of a line, and `Reason` says why the loop ended.
- The wall clock: times are parameters carried by each event.
- The 0.8 s poll interval of `q.get`: it decides only when empty polls happen, and those are given as `Idle` events.
- `KeyboardInterrupt`: Ctrl+C is an external interrupt, not a decision of the loop.
- The `except Exception` handler and its exit code 1: it catches runtime failures of the audio device, the recognizer, JSON decoding or printing, all of which are outside the model. Nothing in the modelled core (`normalize`, `match_any`, `resolve_intent` and the loop's decisions) can raise.
- The `--debug` echo of raw transcripts: it prints only and changes no state.
- Float seconds: times, the debounce window and the timeout are integers (milliseconds). Fractional milliseconds are not represented.
- TextNormal.Lower: only ASCII `A`-`Z` is lowered. Python also lowers other letters, and two of them lower to ASCII letters ("İ", U+0130, and the Kelvin sign, U+212A). Every other non-ASCII letter is blanked by the next pass either way.
- Phrases.IsWordChar: `\w` is ASCII only. On normalized text, the only place patterns are searched, it coincides with Python's Unicode `\w`.
- Phrases.Search: the regex alternations are expanded into literal phrase lists. `shut\s*(?:down|off)` becomes four phrases, because normalized text never holds two spaces in a row.
- EventLoop.Drive: its own contract says only where lines come from and how many there can be. What it computes is stated by the trace lemmas about it.
- Scenarios.OtherAnnouncedOnce: it is stated for any three final transcripts classified START, OTHER and OTHER, not for particular sentences. Sample utterances of that kind would be "please start the session", then two fillers such as "uh yeah so" and "hmm okay", none of which appear in the source. Proving that such literals match no phrase of the tables is costly for the verifier.
- Scenarios.RollingPartialsDebounced: it is stated for any three partial transcripts classified OTHER, STOP and STOP (the rolling "sto", "stop", "stop the" of a recognizer is one instance), not for those literals, for the same reason.

## Findings

| source | as written | input that shows it | evidently intended | confidence | as-written member | corrected member |
|---|---|---|---|---|---|---|
| voice_intent.py:104-105, 130-135, 140-168 | the silence timeout is tested only when the audio queue is empty. While the microphone is open, the callback at lines 69-73 queues a block about every 85 ms (4096 frames at 48000 Hz, the defaults at lines 68 and 102), speech or not. Silent audio comes back as blank transcripts, which `continue` before any timeout test | at the start of a session with the default 2 s timeout, an empty partial result at 30 s and an empty final result at 60 s: the session is still running | "Seconds to auto-exit after no speech": a turn in which nothing is said, an empty poll or a blank transcript, ends the loop once the timeout has run out | medium; read from the code, not executed | Silence.SilentMinute (from Silence.BlanksNeverTimeOut) | Silence.SilenceTimesOut and Silence.SilentMinuteEnds, on Silence.DriveHeard |

The rest of the model keeps the loop as written, `EventLoop.Drive`. The
corrected loop is that same loop run on the hushed events
(`Silence.HeardIsHushed`), so every trace lemma about `Drive` holds of it
unchanged.

=== FILE: event_loop.dfy ===
/** The `while True` loop of `main` in voice_intent.py as a fold of the
    session step over the events it receives, stopping at the first turn
    that ends the loop (the `break`s). */
module EventLoop {

  import opened Wrappers
  import opened TextNormal
  import opened Intents
  import opened Session

  /** Where a run of the loop ends up: the last state, the lines printed in
      order, and why the loop ended (None when the events ran out first). */
  datatype Run = Run(state: State, notices: seq<Notice>, stop: Option<Reason>)

  /** The lines one step prints. */
  function Printed(o: Outcome): seq<Notice> {
    if o.notice.Some? then [o.notice.value] else []
  }

  /** The line `HEARD: "<text>" -> INTENT: <intent>` printed for a
      transcript event: its stripped text, its intent, its time and kind. */
  predicate Reports(n: Notice, ev: Event) {
    !ev.Idle? && n == Notice(Strip(ev.text), Classify(ev.text), ev.at, ev.Partial?)
  }

  /** The loop over the events it receives: step after step, until a step
      ends the loop or the events run out. Every line it prints reports
      one of the events, and there are no more lines than events. */
  function Drive(cfg: Config, s: State, evs: seq<Event>): (r: Run)
    ensures |r.notices| <= |evs|
    ensures forall i :: 0 <= i < |r.notices| ==> exists k :: 0 <= k < |evs| && Reports(r.notices[i], evs[k])
    decreases |evs|
  {
    if |evs| == 0 then Run(s, [], None)
    else
      var o := Step(cfg, s, evs[0]);
      if o.stop.Some? then Run(o.state, Printed(o), o.stop)
      else
        var rest := Drive(cfg, o.state, evs[1..]);
        assert forall k :: 0 <= k < |evs[1..]| ==> evs[1..][k] == evs[k + 1];
        Run(rest.state, Printed(o) + rest.notices, rest.stop)
  }

  /** The same loop over what was perceived of each event; it lets the
      proofs below reason about `Decide` alone, which keeps them cheap. */
  function Fold(cfg: Config, s: State, ps: seq<Percept>): (r: Run)
    ensures |r.notices| <= |ps|
    decreases |ps|
  {
    if |ps| == 0 then Run(s, [], None)
    else
      var o := Decide(cfg, s, ps[0]);
      if o.stop.Some? then Run(o.state, Printed(o), o.stop)
      else
        var rest := Fold(cfg, o.state, ps[1..]);
        Run(rest.state, Printed(o) + rest.notices, rest.stop)
  }

  /** What was perceived of each event. */
  function Perceived(evs: seq<Event>): (ps: seq<Percept>)
    ensures |ps| == |evs|
    ensures forall k :: 0 <= k < |evs| ==> ps[k] == Perceive(evs[k])
  {
    seq(|evs|, k requires 0 <= k < |evs| => Perceive(evs[k]))
  }

  /** Running the loop on the events is folding the decisions over what
      was perceived of them. */
  lemma {:induction false} DriveFolds(cfg: Config, s: State, evs: seq<Event>)
    ensures Drive(cfg, s, evs) == Fold(cfg, s, Perceived(evs))
    decreases |evs|
  {
    if |evs| > 0 {
      var ps := Perceived(evs);
      assert ps[0] == Perceive(evs[0]);
      assert ps[1..] == Perceived(evs[1..]);
      var o := Step(cfg, s, evs[0]);
      if o.stop.None? {
        DriveFolds(cfg, o.state, evs[1..]);
      }
    }
  }

  /* ---------------- properties of the printed lines ---------------- */

  /** `last_emit_ts` after announcing the lines ns, starting from `e`: the
      time of the last line whose intent is not OTHER. */
  function LastEmit(e: int, ns: seq<Notice>): int
    decreases |ns|
  {
    if |ns| == 0 then e
    else LastEmit(if ns[0].intent != Other then ns[0].at else e, ns[1..])
  }

  /** OTHER is announced on a change only: never twice in a row, and not
      first when the intent before was already OTHER. */
  predicate OtherOnChange(before: Option<Intent>, ns: seq<Notice>) {
    && (|ns| > 0 && before == Some(Other) ==> ns[0].intent != Other)
    && (forall k :: 0 < k < |ns| && ns[k].intent == Other ==> ns[k - 1].intent != Other)
  }

  /** No partial line says OTHER. */
  predicate PartialNeverOther(ns: seq<Notice>) {
    forall k :: 0 <= k < |ns| && ns[k].partial ==> ns[k].intent != Other
  }

  /** A partial line that repeats the intent before it comes more than d
      after it; before the first line, the intent was `before` and the last
      announcement was at `emitted`. */
  predicate Debounced(d: int, before: Option<Intent>, emitted: int, ns: seq<Notice>) {
    && (|ns| > 0 && ns[0].partial && before == Some(ns[0].intent) ==> ns[0].at - emitted > d)
    && (forall k :: 0 < k < |ns| && ns[k].partial && ns[k].intent == ns[k - 1].intent ==>
          ns[k].at - ns[k - 1].at > d)
  }

  /** EXIT, if it is printed at all, is the last line. */
  predicate ExitLast(ns: seq<Notice>) {
    forall k :: 0 <= k < |ns| && ns[k].intent == Exit ==> k == |ns| - 1
  }

  lemma {:induction false} OtherOnChangeCons(before: Option<Intent>, n: Notice, rest: seq<Notice>)
    requires before == Some(Other) ==> n.intent != Other
    requires OtherOnChange(Some(n.intent), rest)
    ensures OtherOnChange(before, [n] + rest)
  {
    var ns := [n] + rest;
    forall k | 0 < k < |ns| && ns[k].intent == Other
      ensures ns[k - 1].intent != Other
    {
      assert ns[k] == rest[k - 1];
      if k > 1 {
        assert ns[k - 1] == rest[k - 2];
      }
    }
  }

  lemma {:induction false} PartialNeverOtherCons(n: Notice, rest: seq<Notice>)
    requires n.partial ==> n.intent != Other
    requires PartialNeverOther(rest)
    ensures PartialNeverOther([n] + rest)
  {
    var ns := [n] + rest;
    forall k | 0 < k < |ns|
      ensures ns[k] == rest[k - 1]
    {
    }
  }

  lemma {:induction false} DebouncedCons(d: int, before: Option<Intent>, emitted: int,
                                         n: Notice, rest: seq<Notice>)
    requires n.partial && before == Some(n.intent) ==> n.at - emitted > d
    requires PartialNeverOther(rest)
    requires Debounced(d, Some(n.intent), if n.intent != Other then n.at else emitted, rest)
    ensures Debounced(d, before, emitted, [n] + rest)
  {
    var ns := [n] + rest;
    forall k | 0 < k < |ns| && ns[k].partial && ns[k].intent == ns[k - 1].intent
      ensures ns[k].at - ns[k - 1].at > d
    {
      assert ns[k] == rest[k - 1];
      if k > 1 {
        assert ns[k - 1] == rest[k - 2];
      }
    }
  }

  lemma {:induction false} ExitLastCons(n: Notice, rest: seq<Notice>)
    requires n.intent != Exit
    requires ExitLast(rest)
    ensures ExitLast([n] + rest)
  {
    var ns := [n] + rest;
    forall k | 0 < k < |ns|
      ensures ns[k] == rest[k - 1]
    {
    }
  }

  /* ---------------- unfolding one turn ---------------- */

  /** The fold after a first percept that does not end the loop. */
  lemma {:induction false} FoldOn(cfg: Config, s: State, ps: seq<Percept>)
    requires |ps| > 0
    requires Decide(cfg, s, ps[0]).stop.None?
    ensures var o := Decide(cfg, s, ps[0]);
            var rest := Fold(cfg, o.state, ps[1..]);
            && Fold(cfg, s, ps) == Run(rest.state, Printed(o) + rest.notices, rest.stop)
            && (o.notice.None? ==> Fold(cfg, s, ps).notices == rest.notices)
            && (o.notice.Some? ==> Fold(cfg, s, ps).notices == [o.notice.value] + rest.notices)
  {
  }

  /** The fold after a first percept that ends the loop. */
  lemma {:induction false} FoldEnds(cfg: Config, s: State, ps: seq<Percept>)
    requires |ps| > 0
    requires Decide(cfg, s, ps[0]).stop.Some?
    ensures var o := Decide(cfg, s, ps[0]);
            Fold(cfg, s, ps) == Run(o.state, Printed(o), o.stop)
  {
  }

  lemma {:induction false} AppendParts<T>(xs: seq<T>, more: seq<T>)
    requires |xs| > 0
    ensures (xs + more)[0] == xs[0]
    ensures (xs + more)[1..] == xs[1..] + more
  {
  }

  lemma {:induction false} PerceivedAppend(evs: seq<Event>, more: seq<Event>)
    ensures Perceived(evs + more) == Perceived(evs) + Perceived(more)
  {
    var l := Perceived(evs + more);
    var r := Perceived(evs) + Perceived(more);
    forall k | 0 <= k < |l|
      ensures l[k] == r[k]
    {
      if k < |evs| {
        assert (evs + more)[k] == evs[k];
      } else {
        assert (evs + more)[k] == more[k - |evs|];
      }
    }
  }

  /* ---------------- nothing is processed after the loop ends ---------------- */

  lemma {:induction false} FoldHalts(cfg: Config, s: State, ps: seq<Percept>, more: seq<Percept>)
    requires Fold(cfg, s, ps).stop.Some?
    ensures Fold(cfg, s, ps + more) == Fold(cfg, s, ps)
    decreases |ps|
  {
    assert |ps| > 0;
    AppendParts(ps, more);
    var o := Decide(cfg, s, ps[0]);
    if o.stop.None? {
      FoldOn(cfg, s, ps);
      FoldOn(cfg, s, ps + more);
      FoldHalts(cfg, o.state, ps[1..], more);
    } else {
      FoldEnds(cfg, s, ps);
      FoldEnds(cfg, s, ps + more);
    }
  }

  /** Once the loop has ended, later events change nothing: not the state,
      not the lines printed, not the reason. */
  lemma {:induction false} DriveHalts(cfg: Config, s: State, evs: seq<Event>, more: seq<Event>)
    requires Drive(cfg, s, evs).stop.Some?
    ensures Drive(cfg, s, evs + more) == Drive(cfg, s, evs)
  {
    DriveFolds(cfg, s, evs);
    DriveFolds(cfg, s, evs + more);
    PerceivedAppend(evs, more);
    FoldHalts(cfg, s, Perceived(evs), Perceived(more));
  }

  lemma {:induction false} FoldAppend(cfg: Config, s: State, ps: seq<Percept>, more: seq<Percept>)
    requires Fold(cfg, s, ps).stop.None?
    ensures var r := Fold(cfg, s, ps);
            var r2 := Fold(cfg, r.state, more);
            Fold(cfg, s, ps + more) == Run(r2.state, r.notices + r2.notices, r2.stop)
    decreases |ps|
  {
    if |ps| == 0 {
      assert ps + more == more;
    } else {
      AppendParts(ps, more);
      var o := Decide(cfg, s, ps[0]);
      if o.stop.None? {
        FoldOn(cfg, s, ps);
        FoldOn(cfg, s, ps + more);
        FoldAppend(cfg, o.state, ps[1..], more);
        var r := Fold(cfg, o.state, ps[1..]);
        var r2 := Fold(cfg, r.state, more);
        assert Printed(o) + (r.notices + r2.notices) == (Printed(o) + r.notices) + r2.notices;
      } else {
        FoldEnds(cfg, s, ps);
      }
    }
  }

  /** Running two batches of events one after the other is running their
      concatenation, as long as the first batch does not end the loop. */
  lemma {:induction false} DriveAppend(cfg: Config, s: State, evs: seq<Event>, more: seq<Event>)
    requires Drive(cfg, s, evs).stop.None?
    ensures var r := Drive(cfg, s, evs);
            var r2 := Drive(cfg, r.state, more);
            Drive(cfg, s, evs + more) == Run(r2.state, r.notices + r2.notices, r2.stop)
  {
    DriveFolds(cfg, s, evs);
    DriveFolds(cfg, s, evs + more);
    DriveFolds(cfg, Drive(cfg, s, evs).state, more);
    PerceivedAppend(evs, more);
    FoldAppend(cfg, s, Perceived(evs), Perceived(more));
  }

  /* ---------------- the state remembers the last line ---------------- */

  /** The state after a fold: `last_intent` is the intent of the last line,
      and `last_emit_ts` the time of the last line that was not OTHER. */
  predicate Remembers(before: State, after: State, ns: seq<Notice>) {
    && (|ns| == 0 ==> after.lastIntent == before.lastIntent)
    && (|ns| > 0 ==> after.lastIntent == Some(ns[|ns| - 1].intent))
    && after.lastEmit == LastEmit(before.lastEmit, ns)
  }

  lemma {:induction false} RemembersCons(before: State, mid: State, after: State,
                                         n: Notice, rest: seq<Notice>)
    requires mid.lastIntent == Some(n.intent)
    requires mid.lastEmit == if n.intent != Other then n.at else before.lastEmit
    requires Remembers(mid, after, rest)
    ensures Remembers(before, after, [n] + rest)
  {
    var ns := [n] + rest;
    assert ns[1..] == rest;
    if |rest| > 0 {
      assert ns[|ns| - 1] == rest[|rest| - 1];
    }
  }

  lemma {:induction false} RemembersSame(before: State, mid: State, after: State, ns: seq<Notice>)
    requires mid.lastIntent == before.lastIntent && mid.lastEmit == before.lastEmit
    requires Remembers(mid, after, ns)
    ensures Remembers(before, after, ns)
  {
  }

  lemma {:induction false} FoldRemembers(cfg: Config, s: State, ps: seq<Percept>)
    ensures var r := Fold(cfg, s, ps);
            Remembers(s, r.state, r.notices)
    decreases |ps|
  {
    if |ps| == 0 {
      assert LastEmit(s.lastEmit, []) == s.lastEmit;
    } else {
      var o := Decide(cfg, s, ps[0]);
      if o.stop.None? {
        FoldOn(cfg, s, ps);
        FoldRemembers(cfg, o.state, ps[1..]);
        var rest := Fold(cfg, o.state, ps[1..]);
        if o.notice.Some? {
          RemembersCons(s, o.state, rest.state, o.notice.value, rest.notices);
        } else {
          RemembersSame(s, o.state, rest.state, rest.notices);
        }
      } else {
        FoldEnds(cfg, s, ps);
        assert LastEmit(o.state.lastEmit, []) == o.state.lastEmit;
        if o.notice.Some? {
          RemembersCons(s, o.state, o.state, o.notice.value, []);
          assert [o.notice.value] + [] == Printed(o);
        } else {
          RemembersSame(s, o.state, o.state, []);
        }
      }
    }
  }

  /** `last_intent` is the intent of the last line printed (what it was
      before the run if none was), and `last_emit_ts` the time of the last
      line that was not OTHER. */
  lemma {:induction false} DriveRemembers(cfg: Config, s: State, evs: seq<Event>)
    ensures var r := Drive(cfg, s, evs);
            Remembers(s, r.state, r.notices)
  {
    DriveFolds(cfg, s, evs);
    FoldRemembers(cfg, s, Perceived(evs));
  }

  /* ---------------- OTHER is announced on change only ---------------- */

  lemma {:induction false} FoldOtherOnChange(cfg: Config, s: State, ps: seq<Percept>)
    ensures OtherOnChange(s.lastIntent, Fold(cfg, s, ps).notices)
    decreases |ps|
  {
    if |ps| > 0 {
      var o := Decide(cfg, s, ps[0]);
      if o.stop.None? {
        FoldOn(cfg, s, ps);
        FoldOtherOnChange(cfg, o.state, ps[1..]);
        if o.notice.Some? {
          OtherOnChangeCons(s.lastIntent, o.notice.value, Fold(cfg, o.state, ps[1..]).notices);
        }
      } else {
        FoldEnds(cfg, s, ps);
      }
    }
  }

  /** Two lines in a row are never both OTHER, and the first line is not
      OTHER when the intent before the run already was. */
  lemma {:induction false} OtherNeverRepeats(cfg: Config, s: State, evs: seq<Event>)
    ensures OtherOnChange(s.lastIntent, Drive(cfg, s, evs).notices)
  {
    DriveFolds(cfg, s, evs);
    FoldOtherOnChange(cfg, s, Perceived(evs));
  }

  /* ---------------- partial results are debounced ---------------- */

  lemma {:induction false} FoldPartialNeverOther(cfg: Config, s: State, ps: seq<Percept>)
    ensures PartialNeverOther(Fold(cfg, s, ps).notices)
    decreases |ps|
  {
    if |ps| > 0 {
      var o := Decide(cfg, s, ps[0]);
      if o.stop.None? {
        FoldOn(cfg, s, ps);
        FoldPartialNeverOther(cfg, o.state, ps[1..]);
        if o.notice.Some? {
          PartialNeverOtherCons(o.notice.value, Fold(cfg, o.state, ps[1..]).notices);
        }
      } else {
        FoldEnds(cfg, s, ps);
      }
    }
  }

  lemma {:induction false} FoldDebounced(cfg: Config, s: State, ps: seq<Percept>)
    ensures Debounced(cfg.debounce, s.lastIntent, s.lastEmit, Fold(cfg, s, ps).notices)
    decreases |ps|
  {
    if |ps| > 0 {
      var o := Decide(cfg, s, ps[0]);
      if o.stop.None? {
        FoldOn(cfg, s, ps);
        FoldDebounced(cfg, o.state, ps[1..]);
        if o.notice.Some? {
          FoldPartialNeverOther(cfg, o.state, ps[1..]);
          DebouncedCons(cfg.debounce, s.lastIntent, s.lastEmit, o.notice.value,
                        Fold(cfg, o.state, ps[1..]).notices);
        }
      } else {
        FoldEnds(cfg, s, ps);
      }
    }
  }

  /** No partial line says OTHER; a partial line that repeats the intent of
      the line before it comes more than the debounce window after it; and
      the first line, if partial and repeating the intent before the run,
      comes more than the window after the last announcement before it. */
  lemma {:induction false} PartialsDebounced(cfg: Config, s: State, evs: seq<Event>)
    ensures var ns := Drive(cfg, s, evs).notices;
            PartialNeverOther(ns) && Debounced(cfg.debounce, s.lastIntent, s.lastEmit, ns)
  {
    DriveFolds(cfg, s, evs);
    FoldPartialNeverOther(cfg, s, Perceived(evs));
    FoldDebounced(cfg, s, Perceived(evs));
  }

  /* ---------------- how the loop ends ---------------- */

  /** EXIT is only ever the last line, and the loop ends by voice exactly
      when its last line is EXIT. */
  predicate EndsOnExit(r: Run) {
    && ExitLast(r.notices)
    && (r.stop == Some(VoiceExit) <==> |r.notices| > 0 && r.notices[|r.notices| - 1].intent == Exit)
  }

  lemma {:induction false} FoldEndsOnExit(cfg: Config, s: State, ps: seq<Percept>)
    ensures EndsOnExit(Fold(cfg, s, ps))
    decreases |ps|
  {
    if |ps| > 0 {
      var o := Decide(cfg, s, ps[0]);
      if o.stop.None? {
        FoldOn(cfg, s, ps);
        FoldEndsOnExit(cfg, o.state, ps[1..]);
        if o.notice.Some? {
          var rest := Fold(cfg, o.state, ps[1..]).notices;
          ExitLastCons(o.notice.value, rest);
          if |rest| > 0 {
            assert ([o.notice.value] + rest)[|rest|] == rest[|rest| - 1];
          }
        }
      } else {
        FoldEnds(cfg, s, ps);
      }
    }
  }

  lemma {:induction false} ExitEndsRun(cfg: Config, s: State, evs: seq<Event>)
    ensures EndsOnExit(Drive(cfg, s, evs))
  {
    DriveFolds(cfg, s, evs);
    FoldEndsOnExit(cfg, s, Perceived(evs));
  }

  /** The loop is still going before percept k, which is a poll that finds
      the (positive) silence timeout run out since the last activity. */
  predicate TimesOutAt(cfg: Config, s: State, ps: seq<Percept>, k: int) {
    && 0 <= k < |ps|
    && ps[k].Quiet?
    && var b := Fold(cfg, s, ps[..k]);
       && b.stop.None?
       && cfg.silenceTimeout > 0
       && ps[k].at - b.state.lastActivity > cfg.silenceTimeout
  }

  /** The same on events: event k is an empty poll that times out. */
  predicate IdleTimesOutAt(cfg: Config, s: State, evs: seq<Event>, k: int) {
    && 0 <= k < |evs|
    && evs[k].Idle?
    && var b := Drive(cfg, s, evs[..k]);
       && b.stop.None?
       && cfg.silenceTimeout > 0
       && evs[k].at - b.state.lastActivity > cfg.silenceTimeout
  }

  lemma {:induction false} FoldSilence(cfg: Config, s: State, ps: seq<Percept>)
    ensures Fold(cfg, s, ps).stop == Some(SilenceTimeout) ==> exists k :: TimesOutAt(cfg, s, ps, k)
    decreases |ps|
  {
    if |ps| > 0 {
      var o := Decide(cfg, s, ps[0]);
      if o.stop.None? {
        FoldOn(cfg, s, ps);
        FoldSilence(cfg, o.state, ps[1..]);
        if Fold(cfg, o.state, ps[1..]).stop == Some(SilenceTimeout) {
          var j :| TimesOutAt(cfg, o.state, ps[1..], j);
          var pre := ps[..j + 1];
          assert pre[0] == ps[0] && pre[1..] == ps[1..][..j];
          FoldOn(cfg, s, pre);
          assert ps[j + 1] == ps[1..][j];
          assert TimesOutAt(cfg, s, ps, j + 1);
        }
      } else if o.stop == Some(SilenceTimeout) {
        assert ps[..0] == [];
        assert TimesOutAt(cfg, s, ps, 0);
      }
    }
  }

  /** A poll that times out before the loop has ended ends it there. */
  lemma {:induction false} FoldTimesOut(cfg: Config, s: State, ps: seq<Percept>, k: int)
    requires TimesOutAt(cfg, s, ps, k)
    ensures var b := Fold(cfg, s, ps[..k]);
            Fold(cfg, s, ps) == Run(b.state, b.notices, Some(SilenceTimeout))
  {
    var b := Fold(cfg, s, ps[..k]);
    assert ps == ps[..k] + ps[k..];
    FoldAppend(cfg, s, ps[..k], ps[k..]);
    assert ps[k..][0] == ps[k];
    FoldEnds(cfg, b.state, ps[k..]);
  }

  /** The run ends for silence exactly when some empty poll, taken while
      the loop is still going, comes more than the (positive) timeout after
      the last activity; it then ends at that poll, with the state and the
      lines printed as they were just before it. */
  lemma {:induction false} SilenceEndsRun(cfg: Config, s: State, evs: seq<Event>)
    ensures Drive(cfg, s, evs).stop == Some(SilenceTimeout) <==> exists k :: IdleTimesOutAt(cfg, s, evs, k)
  {
    DriveFolds(cfg, s, evs);
    var ps := Perceived(evs);
    FoldSilence(cfg, s, ps);
    if Drive(cfg, s, evs).stop == Some(SilenceTimeout) {
      var k :| TimesOutAt(cfg, s, ps, k);
      PrefixFolds(cfg, s, evs, k);
      assert ps[k] == Perceive(evs[k]);
      assert IdleTimesOutAt(cfg, s, evs, k);
    }
    if exists k :: IdleTimesOutAt(cfg, s, evs, k) {
      var k :| IdleTimesOutAt(cfg, s, evs, k);
      SilenceStops(cfg, s, evs, k);
    }
  }

  /** The run up to an event, computed on the events or on their percepts. */
  lemma {:induction false} PrefixFolds(cfg: Config, s: State, evs: seq<Event>, k: int)
    requires 0 <= k <= |evs|
    ensures Drive(cfg, s, evs[..k]) == Fold(cfg, s, Perceived(evs)[..k])
  {
    DriveFolds(cfg, s, evs[..k]);
    assert Perceived(evs[..k]) == Perceived(evs)[..k];
  }

  /** The converse: the first empty poll that finds the timeout run out
      ends the run, which keeps the state and lines from before it. */
  lemma {:induction false} SilenceStops(cfg: Config, s: State, evs: seq<Event>, k: int)
    requires IdleTimesOutAt(cfg, s, evs, k)
    ensures var b := Drive(cfg, s, evs[..k]);
            Drive(cfg, s, evs) == Run(b.state, b.notices, Some(SilenceTimeout))
  {
    var ps := Perceived(evs);
    DriveFolds(cfg, s, evs);
    PrefixFolds(cfg, s, evs, k);
    assert ps[k] == Perceive(evs[k]);
    assert TimesOutAt(cfg, s, ps, k);
    FoldTimesOut(cfg, s, ps, k);
  }

  /** With the timeout switched off (zero or negative) the loop never ends
      for silence, however long the polls stay empty. */
  lemma {:induction false} NoTimeoutNoSilenceStop(cfg: Config, s: State, evs: seq<Event>)
    requires cfg.silenceTimeout <= 0
    ensures Drive(cfg, s, evs).stop != Some(SilenceTimeout)
  {
    SilenceEndsRun(cfg, s, evs);
  }

  /* ---------------- blank transcripts are invisible ---------------- */

  /** A transcript event that is blank after stripping. */
  predicate Silent(ev: Event) {
    !ev.Idle? && AllSpace(ev.text)
  }

  /** The events with every blank transcript removed. */
  function Audible(evs: seq<Event>): (r: seq<Event>)
    ensures |r| <= |evs|
    ensures forall k :: 0 <= k < |r| ==> !Silent(r[k])
    decreases |evs|
  {
    if |evs| == 0 then []
    else if Silent(evs[0]) then Audible(evs[1..])
    else [evs[0]] + Audible(evs[1..])
  }

  /** Dropping every transcript that is blank after stripping changes
      nothing about the run. */
  lemma {:induction false} BlanksIgnored(cfg: Config, s: State, evs: seq<Event>)
    ensures Drive(cfg, s, Audible(evs)) == Drive(cfg, s, evs)
    decreases |evs|
  {
    if |evs| > 0 {
      var ev := evs[0];
      var p := Perceive(ev);
      assert Silent(ev) <==> p.Blank?;
      var o := Step(cfg, s, ev);
      if Silent(ev) {
        BlanksIgnored(cfg, s, evs[1..]);
      } else {
        var a := Audible(evs);
        assert a == [ev] + Audible(evs[1..]);
        assert a[0] == ev && a[1..] == Audible(evs[1..]);
        if o.stop.None? {
          BlanksIgnored(cfg, o.state, evs[1..]);
        }
      }
    }
  }
}

=== FILE: intent_examples.dfy ===
/** Worked classifications: the precedence of EXIT over the phrases it
    contains, and whole-word matching of "end". Each fact about a literal
    text is proved on its own and the classifications are chained from
    them. */
module IntentExamples {

  import opened TextNormal
  import opened Phrases
  import opened Intents

  /** A phrase longer than the text cannot occur in it. */
  lemma LongPhraseAbsent(t: string, p: string)
    requires |p| > |t|
    ensures !Occurs(t, p)
  {
  }

  /* "stop listening" contains the STOP phrase "stop", but it is an EXIT
     phrase and EXIT is tested first. */

  lemma StopListeningNormal()
    ensures IsNormal("stop listening")
  {
  }

  lemma StopListeningHeardExit()
    ensures Heard("stop listening", Exit)
  {
    HeardBy("stop listening", Exit, 5, 0);
  }

  lemma StopListeningHeardStop()
    ensures Heard("stop listening", Stop)
  {
    HeardBy("stop listening", Stop, 0, 0);
  }

  lemma StopListeningIsExit()
    ensures Heard("stop listening", Stop)
    ensures Classify("stop listening") == Exit
  {
    StopListeningNormal();
    StopListeningHeardExit();
    StopListeningHeardStop();
    ClassifyNormal("stop listening");
    ExitFirst("stop listening");
  }

  /* "quit asr" contains the STOP phrase "quit" but classifies as EXIT. */

  lemma QuitAsrNormal()
    ensures IsNormal("quit asr")
  {
  }

  lemma QuitAsrHeardExit()
    ensures Heard("quit asr", Exit)
  {
    HeardBy("quit asr", Exit, 1, 0);
  }

  lemma QuitAsrHeardStop()
    ensures Heard("quit asr", Stop)
  {
    HeardBy("quit asr", Stop, 5, 0);
  }

  lemma QuitAsrIsExit()
    ensures Heard("quit asr", Stop)
    ensures Classify("quit asr") == Exit
  {
    QuitAsrNormal();
    QuitAsrHeardExit();
    QuitAsrHeardStop();
    ClassifyNormal("quit asr");
    ExitFirst("quit asr");
  }

  /* Plain "quit" is a STOP phrase only. */

  lemma QuitNormal()
    ensures IsNormal("quit")
  {
  }

  lemma QuitNotExit()
    ensures !Heard("quit", Exit)
  {
    forall k | 0 <= k < |ExitPhrases|
      ensures !Occurs("quit", ExitPhrases[k])
    {
      if k == 0 {
        assert !Search("quit", "exit");
      } else {
        assert |ExitPhrases[k]| > 4;
      }
    }
  }

  lemma QuitHeardStop()
    ensures Heard("quit", Stop)
  {
    HeardBy("quit", Stop, 5, 0);
  }

  lemma QuitIsStop()
    ensures Classify("quit") == Stop
  {
    QuitNormal();
    QuitNotExit();
    QuitHeardStop();
    ClassifyNormal("quit");
    StopSecond("quit");
  }

  /* "end" matches as a whole word only: not inside "ended" or "weekend",
     but before an apostrophe, which is not a word character. */

  lemma EndIsWholeWord()
    ensures !Occurs("ended", "end")
    ensures !Occurs("weekend", "end")
    ensures Occurs("end's", "end")
  {
    assert !Search("ended", "end");
    assert !Search("weekend", "end");
    assert MatchesAt("end's", "end", 0);
  }

  lemma EndsNormal()
    ensures IsNormal("end's")
  {
  }

  lemma EndsNotExitWord()
    ensures !Occurs("end's", "exit")
  {
    assert !Search("end's", "exit");
  }

  lemma EndsNotClose()
    ensures !Occurs("end's", "close")
  {
    assert !Search("end's", "close");
  }

  lemma EndsMissesExitPhrases()
    ensures forall k | 0 <= k < |ExitPhrases| :: !Occurs("end's", ExitPhrases[k])
  {
    forall k | 0 <= k < |ExitPhrases|
      ensures !Occurs("end's", ExitPhrases[k])
    {
      if k == 0 {
        EndsNotExitWord();
      } else if k == 4 {
        EndsNotClose();
      } else {
        LongPhraseAbsent("end's", ExitPhrases[k]);
      }
    }
  }

  lemma EndsNotExit()
    ensures !Heard("end's", Exit)
  {
    EndsMissesExitPhrases();
  }

  lemma EndsHeardStop()
    ensures Heard("end's", Stop)
  {
    HeardBy("end's", Stop, 1, 0);
  }

  /** "end's" keeps its apostrophe through normalization and is a STOP. */
  lemma EndsIsStop()
    ensures Normalize("end's") == "end's"
    ensures Classify("end's") == Stop
  {
    EndsNormal();
    NormalFixed("end's");
    EndsNotExit();
    EndsHeardStop();
    ClassifyNormal("end's");
    StopSecond("end's");
  }

  /* The one-word commands of the session scenarios. */

  lemma ExitNormal()
    ensures IsNormal("exit")
  {
  }

  lemma StopNormal()
    ensures IsNormal("stop")
  {
  }

  lemma ExitHeardExit()
    ensures Heard("exit", Exit)
  {
    HeardBy("exit", Exit, 0, 0);
  }

  lemma ExitIsExit()
    ensures Classify("exit") == Exit
  {
    ExitNormal();
    ExitHeardExit();
    ClassifyNormal("exit");
    ExitFirst("exit");
  }

  lemma StopNotExit()
    ensures !Heard("stop", Exit)
  {
    forall k | 0 <= k < |ExitPhrases|
      ensures !Occurs("stop", ExitPhrases[k])
    {
      if k == 0 {
        assert !Search("stop", "exit");
      } else {
        assert |ExitPhrases[k]| > 4;
      }
    }
  }

  lemma StopHeardStop()
    ensures Heard("stop", Stop)
  {
    HeardBy("stop", Stop, 0, 0);
  }

  lemma StopIsStop()
    ensures Classify("stop") == Stop
  {
    StopNormal();
    StopNotExit();
    StopHeardStop();
    ClassifyNormal("stop");
    StopSecond("stop");
  }

  /* A transcript of punctuation only: it is not blank, but it normalizes
     to "" and so matches nothing. */

  lemma NothingOccursInEmpty(g: Intent)
    ensures !Heard([], g)
  {
    forall k | 0 <= k < |GroupOf(g)|
      ensures !Occurs([], GroupOf(g)[k])
    {
      assert |GroupOf(g)[k]| > 0;
      LongPhraseAbsent([], GroupOf(g)[k]);
    }
  }

  lemma BangsNormalizeToEmpty()
    ensures Normalize("!!!") == []
  {
    assert Lower("!!!") == "!!!";
    assert Kept("!!!") == [];
    NormalizeShape("!!!");
  }

  lemma BangsAreOther()
    ensures Classify("!!!") == Other
  {
    BangsNormalizeToEmpty();
    NothingOccursInEmpty(Exit);
    NothingOccursInEmpty(Stop);
    NothingOccursInEmpty(Pause);
    NothingOccursInEmpty(Start);
  }
}

=== FILE: intents.dfy ===
/** `resolve_intent` of voice_intent.py: normalize, then test the phrase
    groups in the fixed order EXIT, STOP, PAUSE, START. */
module Intents {

  import opened TextNormal
  import opened Phrases

  datatype Intent = Start | Stop | Pause | Exit | Other

  /** The phrase group that signals each intent; OTHER has none. */
  function GroupOf(g: Intent): seq<string> {
    match g
    case Start => StartPhrases
    case Stop => StopPhrases
    case Pause => PausePhrases
    case Exit => ExitPhrases
    case Other => []
  }

  /** Precedence of the groups: EXIT > STOP > PAUSE > START, and OTHER is
      what is left when nothing matches. */
  function Rank(g: Intent): nat {
    match g
    case Exit => 4
    case Stop => 3
    case Pause => 2
    case Start => 1
    case Other => 0
  }

  /** Some phrase of g's group occurs, word-bounded, in the text t. */
  predicate Heard(t: string, g: Intent) {
    MatchAny(t, GroupOf(g))
  }

  /** The group tests of `resolve_intent` on an already normalized text:
      the result is the matching group of highest precedence, and OTHER
      exactly when no group matches. */
  function Resolve(t: string): (r: Intent)
    ensures r != Other ==> Heard(t, r)
    ensures r == Other ==> forall g :: !Heard(t, g)
    ensures forall g :: Heard(t, g) ==> Rank(g) <= Rank(r)
  {
    if Heard(t, Exit) then Exit
    else if Heard(t, Stop) then Stop
    else if Heard(t, Pause) then Pause
    else if Heard(t, Start) then Start
    else
      NothingHeard(t);
      Other
  }

  lemma NothingHeard(t: string)
    requires !Heard(t, Exit) && !Heard(t, Stop) && !Heard(t, Pause) && !Heard(t, Start)
    ensures forall g :: !Heard(t, g)
  {
    forall g
      ensures !Heard(t, g)
    {
      match g
      case Exit =>
      case Stop =>
      case Pause =>
      case Start =>
      case Other =>
    }
  }

  /** `resolve_intent`. */
  function Classify(text: string): (r: Intent)
    ensures r != Other ==> Heard(Normalize(text), r)
    ensures r == Other ==> forall g :: !Heard(Normalize(text), g)
    ensures forall g :: Heard(Normalize(text), g) ==> Rank(g) <= Rank(r)
  {
    Resolve(Normalize(text))
  }

  /** Classification sees only the normalized text, so normalizing first
      changes nothing. */
  lemma ClassifyNormalized(text: string)
    ensures Classify(Normalize(text)) == Classify(text)
  {
    NormalizeIdempotent(text);
  }

  /** The session strips a transcript before classifying it; the result is
      the classification of the unstripped transcript. */
  lemma ClassifyStripped(text: string)
    ensures Classify(Strip(text)) == Classify(text)
  {
    NormalizeStrip(text);
  }

  /** A match of one of g's phrases anywhere in t means g is heard. */
  lemma HeardBy(t: string, g: Intent, k: nat, i: int)
    requires k < |GroupOf(g)| && MatchesAt(t, GroupOf(g)[k], i)
    ensures Heard(t, g)
  {
  }

  /** Every entry of every table is a phrase, so the whole-word reading of
      the patterns applies to all four groups. */
  lemma TablesArePhrases()
    ensures forall g: Intent, k :: 0 <= k < |GroupOf(g)| ==> IsPhrase(GroupOf(g)[k])
  {
    StartTable();
    StopTable();
    PauseTable();
    ExitTable();
    forall g: Intent ensures AllPhrases(GroupOf(g)) {
    }
  }

  /** On normalized text a group is heard exactly when one of its phrases
      stands in the text between spaces, apostrophes or the ends. */
  lemma HeardOnNormal(t: string, g: Intent)
    requires IsNormal(t)
    ensures Heard(t, g) <==> exists k, i :: 0 <= k < |GroupOf(g)| && StandsAt(t, GroupOf(g)[k], i)
  {
    TablesArePhrases();
    forall k, i | 0 <= k < |GroupOf(g)|
      ensures MatchesAt(t, GroupOf(g)[k], i) <==> StandsAt(t, GroupOf(g)[k], i)
    {
      WholeWordOnNormal(t, GroupOf(g)[k], i);
    }
  }

  /** Already-normalized text is classified as it stands. */
  lemma ClassifyNormal(t: string)
    requires IsNormal(t)
    ensures Classify(t) == Resolve(t)
  {
    NormalFixed(t);
  }

  /* The fixed test order, group by group. */

  lemma ExitFirst(t: string)
    requires Heard(t, Exit)
    ensures Resolve(t) == Exit
  {
  }

  lemma StopSecond(t: string)
    requires !Heard(t, Exit) && Heard(t, Stop)
    ensures Resolve(t) == Stop
  {
  }

  lemma PauseThird(t: string)
    requires !Heard(t, Exit) && !Heard(t, Stop) && Heard(t, Pause)
    ensures Resolve(t) == Pause
  {
  }

  lemma StartLast(t: string)
    requires !Heard(t, Exit) && !Heard(t, Stop) && !Heard(t, Pause) && Heard(t, Start)
    ensures Resolve(t) == Start
  {
  }
}

=== FILE: phrases.dfy ===
/** Whole-word phrase search: `match_any` of voice_intent.py and the four
    pattern tables it is applied to.

    Every pattern of the source has the shape `\b<phrase>\b`, where the
    phrase is a literal or a small alternation. Here each alternation is
    written out as the finite list of literal phrases it accepts on
    normalized text; `re.search` of `\b<phrase>\b` becomes "the phrase
    occurs at some index with a word boundary on both sides". */
module Phrases {

  import TextNormal

  /** The `\w` class of `re`, restricted to ASCII: letters, digits and `_`. */
  predicate IsWordChar(c: char) {
    ('a' <= c <= 'z') || ('A' <= c <= 'Z') || ('0' <= c <= '9') || c == '_'
  }

  /** `\b` at position k: exactly one of the characters on either side of
      k is a word character (the ends of the text count as non-word). */
  predicate Boundary(t: string, k: int)
    requires 0 <= k <= |t|
  {
    (k > 0 && IsWordChar(t[k - 1])) != (k < |t| && IsWordChar(t[k]))
  }

  /** `\b<p>\b` matches `t` starting at index i. */
  predicate MatchesAt(t: string, p: string, i: int) {
    && 0 <= i && i + |p| <= |t|
    && t[i..i + |p|] == p
    && Boundary(t, i)
    && Boundary(t, i + |p|)
  }

  /** `re.search(r"\b<p>\b", t)` finds a match. */
  ghost predicate Occurs(t: string, p: string) {
    exists i :: MatchesAt(t, p, i)
  }

  /** Scan for a match of p in t starting at an index at or after `from`. */
  function SearchFrom(t: string, p: string, from: nat): (found: bool)
    requires from <= |t|
    ensures found <==> exists i :: from <= i && MatchesAt(t, p, i)
    decreases |t| - from
  {
    if from + |p| > |t| then false
    else if MatchesAt(t, p, from) then true
    else if from == |t| then false
    else
      var later := SearchFrom(t, p, from + 1);
      assert forall i :: from <= i && MatchesAt(t, p, i) ==> i == from || from + 1 <= i;
      later
  }

  function Search(t: string, p: string): (found: bool)
    ensures found <==> Occurs(t, p)
  {
    SearchFrom(t, p, 0)
  }

  /** `match_any`: some phrase of the list occurs in t. */
  function MatchAny(t: string, phrases: seq<string>): (found: bool)
    ensures found <==> exists k :: 0 <= k < |phrases| && Occurs(t, phrases[k])
  {
    if |phrases| == 0 then false
    else if Search(t, phrases[0]) then true
    else
      var rest := MatchAny(t, phrases[1..]);
      assert forall k :: 1 <= k < |phrases| ==> phrases[k] == phrases[1..][k - 1];
      rest
  }

  /* ---------------- the pattern tables ---------------- */

  /** `_START_PATTERNS`; `start the (?:session|process)` gives two phrases. */
  const StartPhrases: seq<string> := [
    "start", "begin", "commence", "initiate",
    "resume", "continue", "play", "go ahead", "kick off",
    "start the session", "start the process", "please start"
  ]

  /** `_STOP_PATTERNS`; `shut\s*(?:down|off)` gives four phrases, because
      normalized text holds at most one space in a row, and
      `(end|stop) the (?:session|process)` gives four. */
  const StopPhrases: seq<string> := [
    "stop", "end", "halt", "abort", "terminate",
    "quit", "cancel", "shutdown", "shut down", "shutoff", "shut off",
    "end the session", "end the process", "stop the session", "stop the process",
    "please stop", "stop it"
  ]

  /** `_PAUSE_PATTERNS`; `pause the (?:session|process)` gives two phrases. */
  const PausePhrases: seq<string> := [
    "pause", "hold", "hold on", "hang on",
    "wait", "freeze", "suspend",
    "pause the session", "pause the process", "please pause"
  ]

  /** `_EXIT_PATTERNS`; `quit (?:asr|listening|program)` gives three phrases,
      `exit (?:the )?(?:asr|program|app)` six and
      `terminate (?:asr|listening)` two. */
  const ExitPhrases: seq<string> := [
    "exit", "quit asr", "quit listening", "quit program", "close",
    "stop listening", "exit asr", "exit program", "exit app",
    "exit the asr", "exit the program", "exit the app",
    "end listening", "terminate asr", "terminate listening", "goodbye"
  ]

  /** Every table entry is a phrase: lower-case letters and single inner
      spaces, beginning and ending with a letter. */
  predicate IsPhrase(p: string) {
    && |p| > 0
    && (forall i :: 0 <= i < |p| ==> ('a' <= p[i] <= 'z') || p[i] == ' ')
    && 'a' <= p[0] <= 'z'
    && 'a' <= p[|p| - 1] <= 'z'
  }

  /** Every entry of a table is a phrase. */
  predicate AllPhrases(tbl: seq<string>) {
    forall k :: 0 <= k < |tbl| ==> IsPhrase(tbl[k])
  }

  lemma StartTable()
    ensures AllPhrases(StartPhrases)
  {
    forall k | 0 <= k < |StartPhrases| ensures IsPhrase(StartPhrases[k]) {
    }
  }

  lemma StopTable()
    ensures AllPhrases(StopPhrases)
  {
    StopHead();
    StopTail();
  }

  lemma StopHead()
    ensures forall k :: 0 <= k < 8 <= |StopPhrases| ==> IsPhrase(StopPhrases[k])
  {
    forall k | 0 <= k < 8 <= |StopPhrases| ensures IsPhrase(StopPhrases[k]) {
    }
  }

  lemma StopTail()
    ensures forall k :: 8 <= k < |StopPhrases| ==> IsPhrase(StopPhrases[k])
  {
    forall k | 8 <= k < |StopPhrases| ensures IsPhrase(StopPhrases[k]) {
    }
  }

  lemma PauseTable()
    ensures AllPhrases(PausePhrases)
  {
    forall k | 0 <= k < |PausePhrases| ensures IsPhrase(PausePhrases[k]) {
    }
  }

  lemma ExitTable()
    ensures AllPhrases(ExitPhrases)
  {
    ExitHead();
    ExitTail();
  }

  lemma ExitHead()
    ensures forall k :: 0 <= k < 8 <= |ExitPhrases| ==> IsPhrase(ExitPhrases[k])
  {
    forall k | 0 <= k < 8 <= |ExitPhrases| ensures IsPhrase(ExitPhrases[k]) {
    }
  }

  lemma ExitTail()
    ensures forall k :: 8 <= k < |ExitPhrases| ==> IsPhrase(ExitPhrases[k])
  {
    forall k | 8 <= k < |ExitPhrases| ensures IsPhrase(ExitPhrases[k]) {
    }
  }

  /** p stands at index i of t as a separate word: the text there spells
      p, and a space, an apostrophe or an end of the text is on each side. */
  predicate StandsAt(t: string, p: string, i: int) {
    && 0 <= i && i + |p| <= |t|
    && t[i..i + |p|] == p
    && (i == 0 || t[i - 1] == ' ' || t[i - 1] == '\'')
    && (i + |p| == |t| || t[i + |p|] == ' ' || t[i + |p|] == '\'')
  }

  /** On normalized text the only characters that separate words are the
      space and the apostrophe, so a phrase matches exactly where it is
      preceded and followed by the text's end, a space or an apostrophe. */
  lemma WholeWordOnNormal(t: string, p: string, i: int)
    requires TextNormal.IsNormal(t)
    requires IsPhrase(p)
    ensures MatchesAt(t, p, i) <==> StandsAt(t, p, i)
  {
    if 0 <= i && i + |p| <= |t| && t[i..i + |p|] == p {
      assert t[i] == p[0] && t[i + |p| - 1] == p[|p| - 1];
    }
  }
}

=== FILE: scenarios.dfy ===
/** End-to-end behaviour of the loop on short event sequences: OTHER is
    announced once, rolling partial results are debounced, and a spoken
    EXIT ends the session. Each scenario holds for every transcript with
    the stated classification. */
module Scenarios {

  import opened Wrappers
  import opened TextNormal
  import opened Intents
  import opened Session
  import opened EventLoop
  import IntentExamples

  /** One turn of the loop on the event sequence `[ev] + evs`. */
  lemma {:induction false} DriveCons(cfg: Config, s: State, ev: Event, evs: seq<Event>)
    ensures var o := Step(cfg, s, ev);
            Drive(cfg, s, [ev] + evs) ==
              if o.stop.Some? then Run(o.state, Printed(o), o.stop)
              else
                var rest := Drive(cfg, o.state, evs);
                Run(rest.state, Printed(o) + rest.notices, rest.stop)
  {
    assert ([ev] + evs)[0] == ev;
    assert ([ev] + evs)[1..] == evs;
  }

  lemma {:induction false} DriveOne(cfg: Config, s: State, ev: Event)
    ensures var o := Step(cfg, s, ev);
            Drive(cfg, s, [ev]) == Run(o.state, Printed(o), o.stop)
  {
    DriveCons(cfg, s, ev, []);
    assert [ev] + [] == [ev];
    var o := Step(cfg, s, ev);
    if o.stop.None? {
      assert Printed(o) + [] == Printed(o);
    }
  }

  /* One turn on a transcript that is not blank, case by case. */

  lemma FinalAnnounced(cfg: Config, s: State, x: string, t: int)
    requires Classify(x) != Other && !AllSpace(x)
    ensures Step(cfg, s, Final(x, t)) ==
              Outcome(State(Some(Classify(x)), t, t), Some(Notice(Strip(x), Classify(x), t, false)),
                      if Classify(x) == Exit then Some(VoiceExit) else None)
  {
  }

  lemma FinalOtherAnnounced(cfg: Config, s: State, x: string, t: int)
    requires Classify(x) == Other && !AllSpace(x) && s.lastIntent != Some(Other)
    ensures Step(cfg, s, Final(x, t)) ==
              Outcome(State(Some(Other), t, s.lastEmit), Some(Notice(Strip(x), Other, t, false)), None)
  {
  }

  lemma FinalOtherRepeated(cfg: Config, s: State, x: string, t: int)
    requires Classify(x) == Other && !AllSpace(x) && s.lastIntent == Some(Other)
    ensures Step(cfg, s, Final(x, t)) == Outcome(s.(lastActivity := t), None, None)
  {
  }

  lemma PartialAnnounced(cfg: Config, s: State, x: string, t: int)
    requires Classify(x) != Other && !AllSpace(x) && Fresh(cfg, s, Classify(x), t)
    ensures Step(cfg, s, Partial(x, t)) ==
              Outcome(State(Some(Classify(x)), t, t), Some(Notice(Strip(x), Classify(x), t, true)),
                      if Classify(x) == Exit then Some(VoiceExit) else None)
  {
  }

  lemma PartialSuppressed(cfg: Config, s: State, x: string, t: int)
    requires !AllSpace(x) && (Classify(x) == Other || !Fresh(cfg, s, Classify(x), t))
    ensures Step(cfg, s, Partial(x, t)) == Outcome(s.(lastActivity := t), None, None)
  {
  }

  lemma Pair<T>(x: T, y: T)
    ensures [x] + ([y] + []) == [x, y]
  {
  }

  lemma Single<T>(x: T)
    ensures [] + ([x] + []) == [x]
  {
  }

  /** Two events, the first of which does not end the loop. */
  lemma {:induction false} DriveTwo(cfg: Config, s: State, e1: Event, e2: Event)
    requires Step(cfg, s, e1).stop.None?
    ensures var o1 := Step(cfg, s, e1);
            var o2 := Step(cfg, o1.state, e2);
            Drive(cfg, s, [e1, e2]) == Run(o2.state, Printed(o1) + Printed(o2), o2.stop)
  {
    var o1 := Step(cfg, s, e1);
    assert [e1, e2] == [e1] + [e2];
    DriveCons(cfg, s, e1, [e2]);
    DriveOne(cfg, o1.state, e2);
  }

  /** Two events, the first of which prints a line and does not end the
      loop: that line comes first, and a second one is printed exactly when
      the second turn prints one. */
  lemma {:induction false} TwoLines(cfg: Config, s: State, e1: Event, e2: Event)
    requires Step(cfg, s, e1).stop.None? && Step(cfg, s, e1).notice.Some?
    ensures var ns := Drive(cfg, s, [e1, e2]).notices;
            && |ns| > 0 && ns[0] == Step(cfg, s, e1).notice.value
            && (|ns| == 2 <==> Step(cfg, Step(cfg, s, e1).state, e2).notice.Some?)
  {
    DriveTwo(cfg, s, e1, e2);
  }

  /** The outcomes of three turns in a row. */
  predicate Turns(cfg: Config, s: State, e1: Event, e2: Event, e3: Event, o1: Outcome, o2: Outcome, o3: Outcome) {
    && Step(cfg, s, e1) == o1
    && Step(cfg, o1.state, e2) == o2
    && Step(cfg, o2.state, e3) == o3
  }

  /** Three events, the first two of which do not end the loop. */
  lemma {:induction false} DriveThree(cfg: Config, s: State, e1: Event, e2: Event, e3: Event,
                                      o1: Outcome, o2: Outcome, o3: Outcome)
    requires Turns(cfg, s, e1, e2, e3, o1, o2, o3)
    requires o1.stop.None? && o2.stop.None?
    ensures Drive(cfg, s, [e1, e2, e3]) == Run(o3.state, Printed(o1) + (Printed(o2) + Printed(o3)), o3.stop)
  {
    var rest := Drive(cfg, o1.state, [e2, e3]);
    assert Drive(cfg, s, [e1, e2, e3]) == Run(rest.state, Printed(o1) + rest.notices, rest.stop) by {
      assert [e1, e2, e3] == [e1] + [e2, e3];
      DriveCons(cfg, s, e1, [e2, e3]);
    }
    DriveTwo(cfg, o1.state, e2, e3);
  }

  /** The three turns of `OtherAnnouncedOnce`, one by one. */
  lemma OtherTurns(cfg: Config, s: State, a: string, b: string, c: string, t1: int, t2: int, t3: int)
    requires Classify(a) == Start && Classify(b) == Other && Classify(c) == Other
    requires !AllSpace(a) && !AllSpace(b) && !AllSpace(c)
    ensures Turns(cfg, s, Final(a, t1), Final(b, t2), Final(c, t3),
                  Outcome(State(Some(Start), t1, t1), Some(Notice(Strip(a), Start, t1, false)), None),
                  Outcome(State(Some(Other), t2, t1), Some(Notice(Strip(b), Other, t2, false)), None),
                  Outcome(State(Some(Other), t3, t1), None, None))
  {
    FinalAnnounced(cfg, s, a, t1);
    FinalOtherAnnounced(cfg, State(Some(Start), t1, t1), b, t2);
    FinalOtherRepeated(cfg, State(Some(Other), t2, t1), c, t3);
  }

  /** A START final, then two final results that match nothing: the first
      of them is announced as OTHER, the second is not. */
  lemma {:induction false} OtherAnnouncedOnce(cfg: Config, s: State, a: string, b: string, c: string,
                                              t1: int, t2: int, t3: int)
    requires Classify(a) == Start && Classify(b) == Other && Classify(c) == Other
    requires !AllSpace(a) && !AllSpace(b) && !AllSpace(c)
    ensures Drive(cfg, s, [Final(a, t1), Final(b, t2), Final(c, t3)]) ==
              Run(State(Some(Other), t3, t1),
                  [Notice(Strip(a), Start, t1, false), Notice(Strip(b), Other, t2, false)],
                  None)
  {
    var n1 := Notice(Strip(a), Start, t1, false);
    var n2 := Notice(Strip(b), Other, t2, false);
    var o1 := Outcome(State(Some(Start), t1, t1), Some(n1), None);
    var o2 := Outcome(State(Some(Other), t2, t1), Some(n2), None);
    var o3 := Outcome(State(Some(Other), t3, t1), None, None);
    OtherTurns(cfg, s, a, b, c, t1, t2, t3);
    DriveThree(cfg, s, Final(a, t1), Final(b, t2), Final(c, t3), o1, o2, o3);
    Pair(n1, n2);
  }

  /** The three turns of `RollingPartialsDebounced`, one by one. */
  lemma RollingTurns(cfg: Config, s: State, x: string, y: string, z: string, t1: int, t2: int, t3: int)
    requires Classify(x) == Other && Classify(y) == Stop && Classify(z) == Stop
    requires !AllSpace(x) && !AllSpace(y) && !AllSpace(z)
    requires s.lastIntent != Some(Stop)
    requires t3 - t2 <= cfg.debounce
    ensures Turns(cfg, s, Partial(x, t1), Partial(y, t2), Partial(z, t3),
                  Outcome(s.(lastActivity := t1), None, None),
                  Outcome(State(Some(Stop), t2, t2), Some(Notice(Strip(y), Stop, t2, true)), None),
                  Outcome(State(Some(Stop), t3, t2), None, None))
  {
    PartialSuppressed(cfg, s, x, t1);
    PartialAnnounced(cfg, s.(lastActivity := t1), y, t2);
    PartialSuppressed(cfg, State(Some(Stop), t2, t2), z, t3);
  }

  /** Rolling partial results "sto", "stop", "stop the": the first matches
      nothing and is not announced, the second announces STOP, and the
      third, inside the debounce window, is suppressed. */
  lemma {:induction false} RollingPartialsDebounced(cfg: Config, s: State, x: string, y: string, z: string,
                                                    t1: int, t2: int, t3: int)
    requires Classify(x) == Other && Classify(y) == Stop && Classify(z) == Stop
    requires !AllSpace(x) && !AllSpace(y) && !AllSpace(z)
    requires s.lastIntent != Some(Stop)
    requires t3 - t2 <= cfg.debounce
    ensures Drive(cfg, s, [Partial(x, t1), Partial(y, t2), Partial(z, t3)]) ==
              Run(State(Some(Stop), t3, t2), [Notice(Strip(y), Stop, t2, true)], None)
  {
    var n := Notice(Strip(y), Stop, t2, true);
    var o1 := Outcome(s.(lastActivity := t1), None, None);
    var o2 := Outcome(State(Some(Stop), t2, t2), Some(n), None);
    var o3 := Outcome(State(Some(Stop), t3, t2), None, None);
    RollingTurns(cfg, s, x, y, z, t1, t2, t3);
    DriveThree(cfg, s, Partial(x, t1), Partial(y, t2), Partial(z, t3), o1, o2, o3);
    Single(n);
  }

  /** The same from the start of a session, whatever `--silence-timeout`
      is: a STOP partial 400 ms in, and its repeat exactly the 600 ms
      debounce window later, which is still inside the window. */
  lemma {:induction false} FreshSessionRolling(start: int, timeout: int, x: string, y: string, z: string)
    requires Classify(x) == Other && Classify(y) == Stop && Classify(z) == Stop
    requires !AllSpace(x) && !AllSpace(y) && !AllSpace(z)
    ensures Drive(Settings(timeout), Init(start),
                  [Partial(x, start + 100), Partial(y, start + 400), Partial(z, start + 1000)]) ==
              Run(State(Some(Stop), start + 1000, start + 400), [Notice(Strip(y), Stop, start + 400, true)], None)
  {
    RollingPartialsDebounced(Settings(timeout), Init(start), x, y, z, start + 100, start + 400, start + 1000);
  }

  /** With the default `--silence-timeout` of two seconds and nothing heard,
      a poll exactly two seconds after the start keeps the loop going and
      the next one, a millisecond later, ends it. */
  lemma {:induction false} DefaultSilence(start: int)
    ensures Drive(Settings(DefaultSilenceTimeoutMs), Init(start), [Idle(start + 2000)]) ==
              Run(Init(start), [], None)
    ensures Drive(Settings(DefaultSilenceTimeoutMs), Init(start), [Idle(start + 2000), Idle(start + 2001)]) ==
              Run(Init(start), [], Some(SilenceTimeout))
  {
    DriveOne(Settings(DefaultSilenceTimeoutMs), Init(start), Idle(start + 2000));
    DriveTwo(Settings(DefaultSilenceTimeoutMs), Init(start), Idle(start + 2000), Idle(start + 2001));
  }

  /** Two partial results after an announcement of intent i: a repeat of
      i is announced again exactly when it comes more than the debounce
      window later, and a different intent (other than OTHER) is always
      announced. The two runs below say what the loop makes of the pair. */
  lemma {:induction false} RepeatAfterWindow(cfg: Config, s: State, x: string, y: string, t: int, d: int)
    requires Classify(x) != Other && Classify(y) != Other
    requires !AllSpace(x) && !AllSpace(y)
    requires Step(cfg, s, Partial(x, t)).notice.Some?
    ensures var o := Step(cfg, Step(cfg, s, Partial(x, t)).state, Partial(y, t + d));
            && (Classify(y) == Classify(x) ==> (o.notice.Some? <==> d > cfg.debounce))
            && (Classify(y) != Classify(x) ==> o.notice.Some?)
  {
  }

  /** An announced EXIT partial ends the loop, so a partial result after it
      is never looked at. */
  lemma {:induction false} ExitPartialEnds(cfg: Config, s: State, x: string, y: string, t: int, d: int)
    requires Classify(x) == Exit && !AllSpace(x)
    requires Step(cfg, s, Partial(x, t)).notice.Some?
    ensures Drive(cfg, s, [Partial(x, t), Partial(y, t + d)]) ==
              Run(State(Some(Exit), t, t), [Notice(Strip(x), Exit, t, true)], Some(VoiceExit))
  {
    var e1, e2 := Partial(x, t), Partial(y, t + d);
    assert [e1, e2] == [e1] + [e2];
    DriveCons(cfg, s, e1, [e2]);
  }

  /** When the first of the two partials is announced and is not EXIT, the
      run prints both lines exactly when the second is announced by the
      rule of `RepeatAfterWindow`. */
  lemma {:induction false} RepeatRun(cfg: Config, s: State, x: string, y: string, t: int, d: int)
    requires Classify(x) != Other && Classify(x) != Exit && Classify(y) != Other
    requires !AllSpace(x) && !AllSpace(y)
    requires Step(cfg, s, Partial(x, t)).notice.Some?
    ensures var r := Drive(cfg, s, [Partial(x, t), Partial(y, t + d)]);
            && r.notices[0] == Notice(Strip(x), Classify(x), t, true)
            && (Classify(y) == Classify(x) ==> (|r.notices| == 2 <==> d > cfg.debounce))
            && (Classify(y) != Classify(x) ==> |r.notices| == 2)
  {
    TwoLines(cfg, s, Partial(x, t), Partial(y, t + d));
    RepeatAfterWindow(cfg, s, x, y, t, d);
  }

  /** A final result that says EXIT is announced and ends the session;
      whatever comes after it is never looked at. */
  lemma {:induction false} ExitEndsSession(cfg: Config, s: State, x: string, t: int, later: seq<Event>)
    requires Classify(x) == Exit && !AllSpace(x)
    ensures Drive(cfg, s, [Final(x, t)] + later) ==
              Run(State(Some(Exit), t, t), [Notice(Strip(x), Exit, t, false)], Some(VoiceExit))
  {
    DriveCons(cfg, s, Final(x, t), later);
  }

  /** The same for the word "exit" itself. */
  lemma {:induction false} SayingExitEndsSession(cfg: Config, s: State, t: int, later: seq<Event>)
    ensures Drive(cfg, s, [Final("exit", t)] + later) ==
              Run(State(Some(Exit), t, t), [Notice("exit", Exit, t, false)], Some(VoiceExit))
  {
    IntentExamples.ExitIsExit();
    IntentExamples.ExitNormal();
    StripFixed("exit");
    assert !IsSpace("exit"[0]);
    ExitEndsSession(cfg, s, "exit", t, later);
  }

  /** "!!!" is not blank, so it counts as activity, although it classifies
      as OTHER: it is announced only when the intent before was not OTHER. */
  lemma {:induction false} PunctuationIsActivity(cfg: Config, s: State, t: int)
    ensures var o := Step(cfg, s, Final("!!!", t));
            && o.state.lastActivity == t
            && o.state.lastIntent == Some(Other)
            && o.stop.None?
            && (o.notice.Some? <==> s.lastIntent != Some(Other))
  {
    IntentExamples.BangsAreOther();
    assert !AllSpace("!!!") by {
      assert !IsSpace("!!!"[0]);
    }
    if s.lastIntent == Some(Other) {
      FinalOtherRepeated(cfg, s, "!!!", t);
    } else {
      FinalOtherAnnounced(cfg, s, "!!!", t);
    }
  }
}

=== FILE: session.dfy ===
/** The decision engine inside the `while True` loop of `main` in
    voice_intent.py, recast as a pure step on an immutable session state.
    Times are integer milliseconds; the recognizer and the audio queue are
    reduced to the events they deliver. */
module Session {

  import opened Wrappers
  import opened TextNormal
  import opened Intents

  /** `debounce_sec = 0.6`: repeated partial results inside this window are
      not announced again. */
  const DebounceMs: int := 600

  /** Default of `--silence-timeout` (2.0 seconds). */
  const DefaultSilenceTimeoutMs: int := 2000

  datatype Config = Config(debounce: int, silenceTimeout: int)

  /** The configuration `main` runs with for a given `--silence-timeout`. */
  function Settings(silenceTimeout: int): (c: Config)
    ensures c.debounce == 600 && c.silenceTimeout == silenceTimeout
  {
    Config(DebounceMs, silenceTimeout)
  }

  /** `last_intent`, `last_activity_ts` and `last_emit_ts`. */
  datatype State = State(lastIntent: Option<Intent>, lastActivity: int, lastEmit: int)

  /** The state before the loop starts at time `start`. */
  function Init(start: int): (s: State)
    ensures s.lastIntent.None? && s.lastActivity == start && s.lastEmit == 0
  {
    State(None, start, 0)
  }

  /** What one turn of the loop sees: a final result, a partial result, or
      an empty poll of the audio queue, each with the time it was taken.
      The text is the recognizer's raw text, before `.strip()`. */
  datatype Event =
    | Final(text: string, at: int)
    | Partial(text: string, at: int)
    | Idle(at: int)

  /** One `HEARD: "<text>" -> INTENT: <intent>` line. */
  datatype Notice = Notice(heard: string, intent: Intent, at: int, partial: bool)

  /** Why the loop ended: an EXIT was heard, or the silence timeout ran out. */
  datatype Reason = VoiceExit | SilenceTimeout

  /** The next state, the line printed (if any) and whether the loop ends. */
  datatype Outcome = Outcome(state: State, notice: Option<Notice>, stop: Option<Reason>)

  /** What the loop makes of an event before deciding: an empty poll, a
      transcript that is blank after `.strip()`, or a stripped transcript
      with its intent. */
  datatype Percept =
    | Quiet(at: int)
    | Blank
    | Said(text: string, intent: Intent, at: int, partial: bool)

  /** `.strip()`, the emptiness test and `resolve_intent`. */
  function Perceive(ev: Event): (p: Percept)
    ensures ev.Idle? <==> p.Quiet?
    ensures p.Quiet? ==> p.at == ev.at
    ensures !ev.Idle? ==> (p.Blank? <==> AllSpace(ev.text))
    ensures p.Said? ==>
              && p == Said(Strip(ev.text), Classify(ev.text), ev.at, ev.Partial?)
              && |p.text| > 0
  {
    match ev
    case Idle(now) => Quiet(now)
    case Final(raw, now) =>
      var text := Strip(raw);
      StripEmpty(raw);
      ClassifyStripped(raw);
      if text == [] then Blank else Said(text, Classify(text), now, false)
    case Partial(raw, now) =>
      var text := Strip(raw);
      StripEmpty(raw);
      ClassifyStripped(raw);
      if text == [] then Blank else Said(text, Classify(text), now, true)
  }

  /** Whether a partial result of intent `intent` at time `now` is announced:
      either the debounce window since the last announcement has passed
      (strictly), or the intent differs from the last one. */
  predicate Fresh(cfg: Config, s: State, intent: Intent, now: int) {
    now - s.lastEmit > cfg.debounce || s.lastIntent != Some(intent)
  }

  /** The decision of one turn, given what was perceived. */
  function Decide(cfg: Config, s: State, p: Percept): (o: Outcome)
    // the state remembers exactly what was last announced
    ensures o.notice.None? ==> o.state.lastIntent == s.lastIntent && o.state.lastEmit == s.lastEmit
    ensures o.notice.Some? ==> o.state.lastIntent == Some(o.notice.value.intent)
    ensures o.notice.Some? && o.notice.value.intent != Other ==> o.state.lastEmit == o.notice.value.at
    ensures o.notice.Some? && o.notice.value.intent == Other ==> o.state.lastEmit == s.lastEmit
    // the loop ends by voice exactly when it announces EXIT
    ensures o.stop == Some(VoiceExit) <==> o.notice.Some? && o.notice.value.intent == Exit
    // a line repeats what was said
    ensures o.notice.Some? ==> p.Said? && o.notice.value == Notice(p.text, p.intent, p.at, p.partial)
    // OTHER is announced on a change only, and never from a partial result
    ensures o.notice.Some? && o.notice.value.intent == Other ==>
              !o.notice.value.partial && s.lastIntent != Some(Other)
    // a partial line is never OTHER and is fresh
    ensures o.notice.Some? && o.notice.value.partial ==>
              o.notice.value.intent != Other && Fresh(cfg, s, o.notice.value.intent, o.notice.value.at)
    // what is said is announced exactly when the rule for its kind of result allows it
    ensures p.Said? && !p.partial ==>
              (o.notice.Some? <==> p.intent != Other || s.lastIntent != Some(Other))
    ensures p.Said? && p.partial ==>
              (o.notice.Some? <==> p.intent != Other && Fresh(cfg, s, p.intent, p.at))
    // polls and blanks
    ensures p.Quiet? ==> o.state == s && o.notice.None? && o.stop != Some(VoiceExit)
    ensures p.Quiet? ==> (o.stop.Some? <==>
                          cfg.silenceTimeout > 0 && p.at - s.lastActivity > cfg.silenceTimeout)
    ensures p.Blank? ==> o == Outcome(s, None, None)
    ensures p.Said? ==> o.state.lastActivity == p.at && o.stop != Some(SilenceTimeout)
  {
    match p
    case Quiet(now) =>
      if cfg.silenceTimeout > 0 && now - s.lastActivity > cfg.silenceTimeout then
        Outcome(s, None, Some(SilenceTimeout))
      else
        Outcome(s, None, None)
    case Blank =>
      Outcome(s, None, None)
    case Said(text, intent, now, partial) =>
      var active := s.(lastActivity := now);
      var announce :=
        if partial then intent != Other && Fresh(cfg, s, intent, now)
        else intent != Other || s.lastIntent != Some(Other);
      if !announce then
        Outcome(active, None, None)
      else if intent == Other then
        Outcome(active.(lastIntent := Some(Other)), Some(Notice(text, Other, now, partial)), None)
      else
        Outcome(active.(lastIntent := Some(intent), lastEmit := now),
                Some(Notice(text, intent, now, partial)),
                if intent == Exit then Some(VoiceExit) else None)
  }

  /** One turn of the loop. */
  function Step(cfg: Config, s: State, ev: Event): (o: Outcome)
    // an empty poll changes nothing and ends the loop exactly on timeout
    ensures ev.Idle? ==> o.state == s && o.notice.None?
    ensures ev.Idle? ==> (o.stop == Some(SilenceTimeout) <==>
                          cfg.silenceTimeout > 0 && ev.at - s.lastActivity > cfg.silenceTimeout)
    ensures !ev.Idle? ==> o.stop != Some(SilenceTimeout)
    // a transcript that is blank after stripping is ignored entirely
    ensures !ev.Idle? && AllSpace(ev.text) ==> o == Outcome(s, None, None)
    // any other transcript counts as activity
    ensures !ev.Idle? && !AllSpace(ev.text) ==> o.state.lastActivity == ev.at
    // a line reports the stripped transcript, its intent and its time
    ensures o.notice.Some? ==>
              && !ev.Idle?
              && o.notice.value == Notice(Strip(ev.text), Classify(ev.text), ev.at, ev.Partial?)
    // the state remembers exactly what was last announced
    ensures o.notice.None? ==> o.state.lastIntent == s.lastIntent && o.state.lastEmit == s.lastEmit
    ensures o.notice.Some? ==> o.state.lastIntent == Some(o.notice.value.intent)
    ensures o.notice.Some? && o.notice.value.intent != Other ==> o.state.lastEmit == ev.at
    ensures o.notice.Some? && o.notice.value.intent == Other ==> o.state.lastEmit == s.lastEmit
    // the loop ends by voice exactly when it announces EXIT
    ensures o.stop == Some(VoiceExit) <==> o.notice.Some? && o.notice.value.intent == Exit
    // final results: every intent but OTHER is announced; OTHER only after something else
    ensures ev.Final? && !AllSpace(ev.text) ==>
              (o.notice.Some? <==> Classify(ev.text) != Other || s.lastIntent != Some(Other))
    // partial results: never OTHER, and a repeat only once the debounce window has passed
    ensures ev.Partial? && !AllSpace(ev.text) ==>
              (o.notice.Some? <==> Classify(ev.text) != Other && Fresh(cfg, s, Classify(ev.text), ev.at))
  {
    Decide(cfg, s, Perceive(ev))
  }
}

=== FILE: silence.dfy ===
/** The silence timeout of voice_intent.py, as written and as its help text
    describes it ("Seconds to auto-exit after no speech").

    As written, the timeout is tested only when `q.get(timeout=0.8)` finds
    the audio queue empty. While the microphone is open the audio callback
    puts a block on the queue every `blocksize / samplerate` seconds
    (4096 / 48000, about 85 ms, with the defaults), silent or not, and the
    recognizer turns silent audio into blank transcripts, which `continue`
    before any timeout test. So silence alone never ends the loop.

    The loop the help text describes treats a blank transcript like an empty
    poll: a turn in which nothing is said ends the loop once the timeout has
    run out. It is the loop as written run on the events with every blank
    transcript read as an empty poll, so every trace property proved of
    `Drive` holds of it as well. */
module Silence {

  import opened Wrappers
  import opened Session
  import opened EventLoop

  /* ---------------- as written ---------------- */

  lemma {:induction false} NothingAudible(evs: seq<Event>)
    requires forall k :: 0 <= k < |evs| ==> Silent(evs[k])
    ensures Audible(evs) == []
    decreases |evs|
  {
    if |evs| > 0 {
      assert Silent(evs[0]);
      assert forall k :: 0 <= k < |evs[1..]| ==> evs[1..][k] == evs[k + 1];
      NothingAudible(evs[1..]);
    }
  }

  /** However long the recognizer keeps returning blank transcripts, the
      loop as written neither prints nor ends, nor changes its state. */
  lemma {:induction false} BlanksNeverTimeOut(cfg: Config, s: State, evs: seq<Event>)
    requires forall k :: 0 <= k < |evs| ==> Silent(evs[k])
    ensures Drive(cfg, s, evs) == Run(s, [], None)
  {
    NothingAudible(evs);
    BlanksIgnored(cfg, s, evs);
  }

  /** A minute of silence at the start of a session with the default
      two-second timeout: an empty partial result after half a minute and
      an empty final result after a minute leave the session running. */
  lemma {:induction false} SilentMinute(start: int)
    ensures Drive(Settings(DefaultSilenceTimeoutMs), Init(start),
                  [Partial("", start + 30000), Final("", start + 60000)]) ==
              Run(Init(start), [], None)
  {
    var evs := [Partial("", start + 30000), Final("", start + 60000)];
    assert Silent(evs[0]) && Silent(evs[1]);
    BlanksNeverTimeOut(Settings(DefaultSilenceTimeoutMs), Init(start), evs);
  }

  /* ---------------- as the help text describes it ---------------- */

  /** A turn in which nothing is said: an empty poll or a blank transcript. */
  predicate Unspoken(ev: Event) {
    ev.Idle? || Silent(ev)
  }

  /** One turn of the loop the help text describes: a blank transcript is
      tested against the timeout like an empty poll; every other turn is
      the turn as written. */
  function HeardStep(cfg: Config, s: State, ev: Event): (o: Outcome)
    ensures Unspoken(ev) ==> o.state == s && o.notice.None? && o.stop != Some(VoiceExit)
    ensures Unspoken(ev) ==> (o.stop.Some? <==>
                              cfg.silenceTimeout > 0 && ev.at - s.lastActivity > cfg.silenceTimeout)
    ensures !Unspoken(ev) ==> o == Step(cfg, s, ev)
  {
    if Silent(ev) then Step(cfg, s, Idle(ev.at)) else Step(cfg, s, ev)
  }

  /** The events with every blank transcript read as an empty poll taken at
      the same time. */
  function Hush(evs: seq<Event>): (r: seq<Event>)
    ensures |r| == |evs|
    ensures forall k :: 0 <= k < |evs| ==> !Silent(r[k]) && r[k].at == evs[k].at
    ensures forall k :: 0 <= k < |evs| && !Silent(evs[k]) ==> r[k] == evs[k]
  {
    seq(|evs|, k requires 0 <= k < |evs| => if Silent(evs[k]) then Idle(evs[k].at) else evs[k])
  }

  /** The loop the help text describes, over the events it receives. */
  function DriveHeard(cfg: Config, s: State, evs: seq<Event>): (r: Run)
    ensures |r.notices| <= |evs|
    decreases |evs|
  {
    if |evs| == 0 then Run(s, [], None)
    else
      var o := HeardStep(cfg, s, evs[0]);
      if o.stop.Some? then Run(o.state, Printed(o), o.stop)
      else
        var rest := DriveHeard(cfg, o.state, evs[1..]);
        Run(rest.state, Printed(o) + rest.notices, rest.stop)
  }

  /** It is the loop as written, run on the hushed events; so the trace
      lemmas about `Drive` apply to it unchanged. */
  lemma {:induction false} HeardIsHushed(cfg: Config, s: State, evs: seq<Event>)
    ensures DriveHeard(cfg, s, evs) == Drive(cfg, s, Hush(evs))
    decreases |evs|
  {
    if |evs| > 0 {
      var h := Hush(evs);
      assert h[0] == (if Silent(evs[0]) then Idle(evs[0].at) else evs[0]);
      assert h[1..] == Hush(evs[1..]);
      var o := HeardStep(cfg, s, evs[0]);
      assert o == Step(cfg, s, h[0]);
      if o.stop.None? {
        HeardIsHushed(cfg, o.state, evs[1..]);
      }
    }
  }

  /** When nothing is said, that loop prints nothing, keeps its state, and
      ends exactly when some turn comes more than the (positive) timeout
      after the last activity. */
  lemma {:induction false} SilenceTimesOut(cfg: Config, s: State, evs: seq<Event>)
    requires forall k :: 0 <= k < |evs| ==> Unspoken(evs[k])
    ensures var r := DriveHeard(cfg, s, evs);
            && r.state == s && r.notices == []
            && (r.stop.Some? <==>
                  cfg.silenceTimeout > 0 &&
                  exists k :: 0 <= k < |evs| && evs[k].at - s.lastActivity > cfg.silenceTimeout)
            && r.stop != Some(VoiceExit)
    decreases |evs|
  {
    if |evs| > 0 {
      var o := HeardStep(cfg, s, evs[0]);
      assert Unspoken(evs[0]);
      if o.stop.None? {
        assert forall k :: 0 <= k < |evs[1..]| ==> evs[1..][k] == evs[k + 1];
        SilenceTimesOut(cfg, s, evs[1..]);
        if cfg.silenceTimeout > 0 && exists k :: 0 <= k < |evs| && evs[k].at - s.lastActivity > cfg.silenceTimeout {
          var k :| 0 <= k < |evs| && evs[k].at - s.lastActivity > cfg.silenceTimeout;
          assert k != 0;
          assert evs[1..][k - 1] == evs[k];
        }
      }
    }
  }

  /** The same minute of silence ends that session for silence. */
  lemma {:induction false} SilentMinuteEnds(start: int)
    ensures DriveHeard(Settings(DefaultSilenceTimeoutMs), Init(start),
                       [Partial("", start + 30000), Final("", start + 60000)]) ==
              Run(Init(start), [], Some(SilenceTimeout))
  {
    var evs := [Partial("", start + 30000), Final("", start + 60000)];
    assert Unspoken(evs[0]) && Unspoken(evs[1]);
    SilenceTimesOut(Settings(DefaultSilenceTimeoutMs), Init(start), evs);
    assert evs[0].at - Init(start).lastActivity > DefaultSilenceTimeoutMs;
  }
}

=== FILE: text_normal.dfy ===
/** The text normalizer of voice_intent.py (`normalize`), and Python's
    `str.strip()`, which the event loop applies to every raw transcript.

    `normalize` works in three passes, each modelled by its own function:
      1. `text.lower()`                         -- Lower
      2. `re.sub(r"[^a-z0-9\s']", " ", text)`   -- Scrub
      3. `re.sub(r"\s+", " ", text).strip()`    -- Collapse, then Strip
 */
module TextNormal {

  /** Python's whitespace class: `str.isspace()`, which is also what the
      `\s` class of `re` means on str patterns. The list is finite and is
      modelled in full. */
  predicate IsSpace(c: char) {
    || c == ' '
    || ('\t' <= c <= '\r')
    || ('\U{1C}' <= c <= '\U{1F}')
    || c == '\U{85}' || c == '\U{A0}' || c == '\U{1680}'
    || ('\U{2000}' <= c <= '\U{200A}')
    || c == '\U{2028}' || c == '\U{2029}' || c == '\U{202F}'
    || c == '\U{205F}' || c == '\U{3000}'
  }

  predicate AllSpace(s: string) {
    forall i :: 0 <= i < |s| ==> IsSpace(s[i])
  }

  /** s[i..j] is all whitespace. */
  predicate SpaceBetween(s: string, i: int, j: int) {
    forall k :: i <= k < j && 0 <= k < |s| ==> IsSpace(s[k])
  }

  predicate IsUpper(c: char) {
    'A' <= c <= 'Z'
  }

  /** The characters the scrubbing pass keeps besides whitespace:
      the class `[a-z0-9']`. */
  predicate IsKept(c: char) {
    ('a' <= c <= 'z') || ('0' <= c <= '9') || c == '\''
  }

  /** The kept characters of `s`, in order; whitespace and everything the
      scrubbing pass blanks out are dropped. */
  function Kept(s: string): string {
    if |s| == 0 then []
    else if IsKept(s[0]) then [s[0]] + Kept(s[1..])
    else Kept(s[1..])
  }

  /** `str.lower()` restricted to ASCII letters. */
  function LowerChar(c: char): (r: char)
    ensures IsUpper(c) ==> 'a' <= r <= 'z' && r as int == c as int + 32
    ensures !IsUpper(c) ==> r == c
  {
    if IsUpper(c) then (c as int + 32) as char else c
  }

  function Lower(s: string): (r: string)
    ensures |r| == |s|
    ensures forall i :: 0 <= i < |s| ==> r[i] == LowerChar(s[i])
  {
    seq(|s|, i requires 0 <= i < |s| => LowerChar(s[i]))
  }

  /** One character of `re.sub(r"[^a-z0-9\s']", " ", text)`. */
  function ScrubChar(c: char): (r: char)
    ensures IsKept(c) || IsSpace(c) ==> r == c
    ensures !IsKept(c) && !IsSpace(c) ==> r == ' '
  {
    if IsKept(c) || IsSpace(c) then c else ' '
  }

  function Scrub(s: string): (r: string)
    ensures |r| == |s|
    ensures forall i :: 0 <= i < |s| ==> r[i] == ScrubChar(s[i])
  {
    seq(|s|, i requires 0 <= i < |s| => ScrubChar(s[i]))
  }

  /** `re.sub(r"\s+", " ", text)`: every maximal run of whitespace becomes
      one plain space. A whitespace character followed by another one is
      dropped; the last of a run is written as ' '. */
  function Collapse(s: string): (r: string)
    ensures |s| == 0 ==> r == []
    ensures |s| > 0 ==> |r| > 0 && (IsSpace(s[0]) <==> r[0] == ' ')
    ensures |s| > 0 ==> (IsSpace(s[|s| - 1]) <==> r[|r| - 1] == ' ')
    ensures SingleSpaced(r)
    ensures PlainSpaced(r)
    ensures NonSpaceKept(s) ==> NormalChars(r)
  {
    if |s| == 0 then []
    else if IsSpace(s[0]) then
      if |s| > 1 && IsSpace(s[1]) then Collapse(s[1..])
      else
        var rest := Collapse(s[1..]);
        SingleSpacedCons(' ', rest);
        [' '] + rest
    else
      var rest := Collapse(s[1..]);
      SingleSpacedCons(s[0], rest);
      [s[0]] + rest
  }

  /** The index of the first non-whitespace character of s at or after i,
      or |s| when there is none. */
  function SkipLeading(s: string, i: nat): (j: nat)
    requires i <= |s|
    ensures i <= j <= |s|
    ensures j < |s| ==> !IsSpace(s[j])
    decreases |s| - i
  {
    if i < |s| && IsSpace(s[i]) then SkipLeading(s, i + 1) else i
  }

  lemma {:induction false} SkippedLeading(s: string, i: nat)
    requires i <= |s|
    ensures SpaceBetween(s, i, SkipLeading(s, i))
    decreases |s| - i
  {
    if i < |s| && IsSpace(s[i]) {
      SkippedLeading(s, i + 1);
    }
  }

  /** The end of s[..j] once its trailing whitespace is dropped, never
      going below lo. */
  function SkipTrailing(s: string, lo: nat, j: nat): (k: nat)
    requires lo <= j <= |s|
    ensures lo <= k <= j
    ensures k > lo ==> !IsSpace(s[k - 1])
    decreases j
  {
    if j > lo && IsSpace(s[j - 1]) then SkipTrailing(s, lo, j - 1) else j
  }

  lemma {:induction false} SkippedTrailing(s: string, lo: nat, j: nat)
    requires lo <= j <= |s|
    ensures SpaceBetween(s, SkipTrailing(s, lo, j), j)
  {
    if j > lo && IsSpace(s[j - 1]) {
      SkippedTrailing(s, lo, j - 1);
    }
  }

  /** Python's `str.strip()` with no argument: the slice of s between its
      leading and its trailing whitespace. */
  function Strip(s: string): (r: string)
    ensures |r| > 0 ==> !IsSpace(r[0]) && !IsSpace(r[|r| - 1])
  {
    var a := SkipLeading(s, 0);
    s[a..SkipTrailing(s, a, |s|)]
  }

  /** A transcript strips to "" exactly when it is all whitespace. */
  lemma {:induction false} StripEmpty(s: string)
    ensures Strip(s) == [] <==> AllSpace(s)
  {
    var a := SkipLeading(s, 0);
    var b := SkipTrailing(s, a, |s|);
    SkippedLeading(s, 0);
    SkippedTrailing(s, a, |s|);
  }

  predicate DoubleSpaceAt(s: string, i: nat)
    requires i + 1 < |s|
  {
    s[i] == ' ' && s[i + 1] == ' '
  }

  /** No two plain spaces in a row. */
  predicate SingleSpaced(s: string) {
    forall i: nat :: i + 1 < |s| ==> !DoubleSpaceAt(s, i)
  }

  lemma {:induction false} SingleSpacedCons(c: char, w: string)
    requires SingleSpaced(w)
    requires c == ' ' && |w| > 0 ==> w[0] != ' '
    ensures SingleSpaced([c] + w)
  {
    var cw := [c] + w;
    forall i: nat | i + 1 < |cw|
      ensures !DoubleSpaceAt(cw, i)
    {
      if i > 0 {
        assert cw[i] == w[i - 1] && cw[i + 1] == w[i];
        assert !DoubleSpaceAt(w, i - 1);
      }
    }
  }

  lemma {:induction false} SingleSpacedTail(t: string)
    requires SingleSpaced(t) && |t| > 0
    ensures SingleSpaced(t[1..])
  {
    forall i: nat | i + 1 < |t| - 1
      ensures !DoubleSpaceAt(t[1..], i)
    {
      assert !DoubleSpaceAt(t, i + 1);
    }
  }

  /** The only whitespace is the plain space. */
  predicate PlainSpaced(s: string) {
    forall i :: 0 <= i < |s| && IsSpace(s[i]) ==> s[i] == ' '
  }

  /** Every character that is not whitespace is one of `[a-z0-9']`: what
      the scrubbing pass leaves. */
  predicate NonSpaceKept(s: string) {
    forall i :: 0 <= i < |s| ==> IsSpace(s[i]) || IsKept(s[i])
  }

  /** Only `[a-z0-9']` and plain spaces. */
  predicate NormalChars(s: string) {
    forall i :: 0 <= i < |s| ==> IsKept(s[i]) || s[i] == ' '
  }

  /** The shape of every string `normalize` returns: only `[a-z0-9']` and
      plain spaces, no space at either end, never two spaces in a row. */
  predicate IsNormal(t: string) {
    && NormalChars(t)
    && (|t| > 0 ==> t[0] != ' ' && t[|t| - 1] != ' ')
    && SingleSpaced(t)
  }

  /** The last pass of `normalize`: `re.sub(r"\s+", " ", text).strip()`. */
  function Tidy(y: string): string {
    Strip(Collapse(y))
  }

  /** `normalize`. */
  function Normalize(text: string): string {
    Tidy(Scrub(Lower(text)))
  }

  /** What `normalize` promises: its result is in normal form, keeps exactly
      the `[a-z0-9']` characters of the lower-cased input in their order, and
      is empty exactly when the input has none of them (so empty and
      all-punctuation inputs give ""). */
  lemma {:induction false} NormalizeShape(text: string)
    ensures IsNormal(Normalize(text))
    ensures Kept(Normalize(text)) == Kept(Lower(text))
    ensures Normalize(text) == [] <==> Kept(Lower(text)) == []
  {
    var scrubbed := Scrub(Lower(text));
    var collapsed := Collapse(scrubbed);
    StripNormal(collapsed);
    StripKept(collapsed);
    CollapseKept(scrubbed);
    ScrubKept(Lower(text));
    NormalEmptyWhenNothingKept(Normalize(text));
  }

  /* ---------------- lemmas about Kept ---------------- */

  lemma {:induction false} KeptAppend(a: string, b: string)
    ensures Kept(a + b) == Kept(a) + Kept(b)
  {
    if |a| == 0 {
      assert a + b == b;
    } else {
      var ab := a + b;
      assert ab[0] == a[0];
      assert ab[1..] == a[1..] + b;
      KeptAppend(a[1..], b);
      if IsKept(a[0]) {
        assert [a[0]] + (Kept(a[1..]) + Kept(b)) == ([a[0]] + Kept(a[1..])) + Kept(b);
      }
    }
  }

  lemma {:induction false} CollapseKept(s: string)
    ensures Kept(Collapse(s)) == Kept(s)
  {
    if |s| > 0 {
      CollapseKept(s[1..]);
    }
  }

  lemma {:induction false} ScrubKept(s: string)
    ensures Kept(Scrub(s)) == Kept(s)
  {
    if |s| > 0 {
      assert Scrub(s)[1..] == Scrub(s[1..]);
      ScrubKept(s[1..]);
    }
  }

  /** A string in normal form that keeps nothing is empty: its first
      character would have to be a kept one. */
  lemma {:induction false} NormalEmptyWhenNothingKept(t: string)
    requires IsNormal(t)
    ensures Kept(t) == [] ==> t == []
  {
    if |t| > 0 {
      assert IsKept(t[0]);
      assert Kept(t) == [t[0]] + Kept(t[1..]);
    }
  }

  /** A slice keeps the alphabet and the single spacing. */
  lemma {:induction false} SliceShape(c: string, a: nat, b: nat)
    requires NormalChars(c) && SingleSpaced(c)
    requires a <= b <= |c|
    ensures NormalChars(c[a..b]) && SingleSpaced(c[a..b])
  {
    var r := c[a..b];
    forall i | 0 <= i < |r|
      ensures IsKept(r[i]) || r[i] == ' '
    {
      assert r[i] == c[a + i];
    }
    forall i: nat | i + 1 < |r|
      ensures !DoubleSpaceAt(r, i)
    {
      assert r[i] == c[a + i] && r[i + 1] == c[a + i + 1];
      assert !DoubleSpaceAt(c, a + i);
    }
  }

  lemma {:induction false} StripNormal(c: string)
    requires NormalChars(c) && SingleSpaced(c)
    ensures IsNormal(Strip(c))
  {
    var a := SkipLeading(c, 0);
    SliceShape(c, a, SkipTrailing(c, a, |c|));
  }

  lemma {:induction false} KeptOfSpaces(s: string, i: nat, j: nat)
    requires i <= j <= |s| && SpaceBetween(s, i, j)
    ensures Kept(s[i..j]) == []
    decreases j - i
  {
    if i < j {
      assert s[i..j][1..] == s[i + 1..j];
      KeptOfSpaces(s, i + 1, j);
    }
  }

  lemma {:induction false} KeptThree(c: string, a: nat, b: nat)
    requires a <= b <= |c|
    ensures Kept(c) == Kept(c[0..a]) + Kept(c[a..b]) + Kept(c[b..|c|])
  {
    assert c == c[0..a] + (c[a..b] + c[b..|c|]);
    KeptAppend(c[a..b], c[b..|c|]);
    KeptAppend(c[0..a], c[a..b] + c[b..|c|]);
  }

  /** Strip removes only whitespace, so it keeps the kept characters. */
  lemma {:induction false} StripKept(c: string)
    ensures Kept(Strip(c)) == Kept(c)
  {
    var a := SkipLeading(c, 0);
    var b := SkipTrailing(c, a, |c|);
    StripBounds(c);
    KeptOfSpaces(c, 0, a);
    KeptOfSpaces(c, b, |c|);
    KeptThree(c, a, b);
  }

  /* ---------------- idempotence ---------------- */

  lemma {:induction false} CollapseFixed(t: string)
    requires NormalChars(t) && SingleSpaced(t)
    ensures Collapse(t) == t
  {
    if |t| > 0 {
      SingleSpacedTail(t);
      if |t| > 1 {
        assert !DoubleSpaceAt(t, 0);
      }
      assert NormalChars(t[1..]) by {
        forall i | 0 <= i < |t| - 1
          ensures IsKept(t[1..][i]) || t[1..][i] == ' '
        {
          assert t[1..][i] == t[i + 1];
        }
      }
      CollapseFixed(t[1..]);
      assert t == [t[0]] + t[1..];
    }
  }

  lemma {:induction false} LowerFixed(t: string)
    requires NormalChars(t)
    ensures Lower(t) == t
  {
  }

  lemma {:induction false} ScrubFixed(t: string)
    requires NormalChars(t)
    ensures Scrub(t) == t
  {
  }

  lemma {:induction false} StripFixed(t: string)
    requires IsNormal(t)
    ensures Strip(t) == t
  {
    if |t| > 0 {
      assert !IsSpace(t[0]) && !IsSpace(t[|t| - 1]);
    }
  }

  /** A string already in normal form is left alone by Normalize. */
  lemma {:induction false} NormalFixed(t: string)
    requires IsNormal(t)
    ensures Normalize(t) == t
  {
    LowerFixed(t);
    ScrubFixed(t);
    CollapseFixed(t);
    StripFixed(t);
  }

  /** `normalize` is idempotent. */
  lemma {:induction false} NormalizeIdempotent(text: string)
    ensures Normalize(Normalize(text)) == Normalize(text)
  {
    NormalizeShape(text);
    NormalFixed(Normalize(text));
  }

  /* ---------------- whitespace at the ends does not matter ---------------- */

  lemma {:induction false} SkipLeadingShift(c: char, w: string, i: nat)
    requires i <= |w|
    ensures SkipLeading([c] + w, i + 1) == SkipLeading(w, i) + 1
    decreases |w| - i
  {
    if i < |w| {
      assert ([c] + w)[i + 1] == w[i];
      SkipLeadingShift(c, w, i + 1);
    }
  }

  lemma {:induction false} SkipTrailingShift(c: char, w: string, lo: nat, j: nat)
    requires lo <= j <= |w|
    ensures SkipTrailing([c] + w, lo + 1, j + 1) == SkipTrailing(w, lo, j) + 1
  {
    if j > lo {
      assert ([c] + w)[j] == w[j - 1];
      SkipTrailingShift(c, w, lo, j - 1);
    }
  }

  lemma {:induction false} SliceCons(c: char, w: string, a: nat, b: nat)
    requires a <= b <= |w|
    ensures ([c] + w)[a + 1..b + 1] == w[a..b]
  {
  }

  lemma {:induction false} SliceSnoc(w: string, c: char, a: nat, b: nat)
    requires a <= b <= |w|
    ensures (w + [c])[a..b] == w[a..b]
  {
  }

  lemma {:induction false} SkipLeadingCons(c: char, w: string)
    requires IsSpace(c)
    ensures SkipLeading([c] + w, 0) == SkipLeading(w, 0) + 1
  {
    SkipLeadingShift(c, w, 0);
  }

  lemma {:induction false} StripDropsLeadingSpace(c: char, w: string)
    requires IsSpace(c)
    ensures Strip([c] + w) == Strip(w)
  {
    var a := SkipLeading(w, 0);
    var b := SkipTrailing(w, a, |w|);
    SkipLeadingCons(c, w);
    SkipTrailingShift(c, w, a, |w|);
    SliceCons(c, w, a, b);
  }

  lemma {:induction false} SkipLeadingSnoc(w: string, c: char, i: nat)
    requires IsSpace(c) && i <= |w|
    ensures SkipLeading(w, i) < |w| ==> SkipLeading(w + [c], i) == SkipLeading(w, i)
    ensures SkipLeading(w, i) == |w| ==> SkipLeading(w + [c], i) == |w| + 1
    decreases |w| - i
  {
    if i < |w| {
      assert (w + [c])[i] == w[i];
      SkipLeadingSnoc(w, c, i + 1);
    } else {
      assert (w + [c])[i] == c;
    }
  }

  lemma {:induction false} SkipTrailingSnoc(w: string, c: char, lo: nat, j: nat)
    requires lo <= j <= |w|
    ensures SkipTrailing(w + [c], lo, j) == SkipTrailing(w, lo, j)
  {
    if j > lo {
      assert (w + [c])[j - 1] == w[j - 1];
      SkipTrailingSnoc(w, c, lo, j - 1);
    }
  }

  lemma {:induction false} StripDropsTrailingSpace(w: string, c: char)
    requires IsSpace(c)
    ensures Strip(w + [c]) == Strip(w)
  {
    var a := SkipLeading(w, 0);
    var b := SkipTrailing(w, a, |w|);
    SkipLeadingSnoc(w, c, 0);
    if a < |w| {
      assert (w + [c])[|w|] == c;
      SkipTrailingSnoc(w, c, a, |w|);
      SliceSnoc(w, c, a, b);
    }
  }

  lemma {:induction false} CollapseSnocSpace(y: string, c: char)
    requires IsSpace(c)
    ensures Collapse(y + [c]) == Collapse(y) || Collapse(y + [c]) == Collapse(y) + [' ']
  {
    if |y| == 0 {
      CollapseSpaceCons(c, []);
      assert y + [c] == [c] + [];
    } else {
      var t := y[1..];
      HeadThen(y, [c]);
      HeadRest(y);
      CollapseSnocSpace(t, c);
      if !IsSpace(y[0]) {
        CollapseCons(y[0], t + [c]);
        CollapseCons(y[0], t);
        ConsSnoc(y[0], Collapse(t), ' ');
      } else {
        CollapseSpaceCons(y[0], t + [c]);
        CollapseSpaceCons(y[0], t);
        if |t| == 0 {
          CollapseSpaceCons(c, []);
          assert t + [c] == [c] + [];
        } else {
          assert (t + [c])[0] == t[0];
          ConsSnoc(' ', Collapse(t), ' ');
        }
      }
    }
  }

  /** One step of Collapse at a leading whitespace character. */
  lemma {:induction false} CollapseSpaceCons(c: char, t: string)
    requires IsSpace(c)
    ensures Collapse([c] + t) == if |t| > 0 && IsSpace(t[0]) then Collapse(t) else [' '] + Collapse(t)
  {
    assert ([c] + t)[0] == c && ([c] + t)[1..] == t;
    assert |t| > 0 ==> ([c] + t)[1] == t[0];
  }

  lemma HeadRest<T>(a: seq<T>)
    requires |a| > 0
    ensures a == [a[0]] + a[1..]
  {
  }

  lemma ConsSnoc<T>(x: T, m: seq<T>, z: T)
    ensures ([x] + m) + [z] == [x] + (m + [z])
  {
  }

  lemma {:induction false} TidyDropsLeadingSpace(c: char, y: string)
    requires IsSpace(c)
    ensures Tidy([c] + y) == Tidy(y)
  {
    assert ([c] + y)[1..] == y;
    if !(|y| > 0 && IsSpace(y[0])) {
      StripDropsLeadingSpace(' ', Collapse(y));
    }
  }

  lemma {:induction false} TidyDropsTrailingSpace(y: string, c: char)
    requires IsSpace(c)
    ensures Tidy(y + [c]) == Tidy(y)
  {
    CollapseSnocSpace(y, c);
    if Collapse(y + [c]) != Collapse(y) {
      StripDropsTrailingSpace(Collapse(y), ' ');
    }
  }

  lemma {:induction false} TidyDropsLeading(y: string, a: nat)
    requires a <= |y| && SpaceBetween(y, 0, a)
    ensures Tidy(y[a..]) == Tidy(y)
  {
    if a > 0 {
      TidyDropsLeading(y, a - 1);
      var longer := y[a - 1..];
      var shorter := y[a..];
      assert longer == [y[a - 1]] + shorter;
      TidyDropsLeadingSpace(y[a - 1], shorter);
      assert Tidy(longer) == Tidy(shorter);
    }
  }

  lemma {:induction false} TidyDropsTrailing(y: string, b: nat)
    requires b <= |y| && SpaceBetween(y, b, |y|)
    ensures Tidy(y[..b]) == Tidy(y)
    decreases |y| - b
  {
    if b < |y| {
      TidyDropsTrailing(y, b + 1);
      var shorter := y[..b];
      var longer := y[..b + 1];
      assert longer == shorter + [y[b]];
      TidyDropsTrailingSpace(shorter, y[b]);
      assert Tidy(longer) == Tidy(shorter);
    } else {
      assert y[..b] == y;
    }
  }

  /** The first two passes work character by character, so they commute
      with slicing and leave whitespace where it was. */
  lemma {:induction false} ScrubLowerSlice(s: string, a: nat, b: nat)
    requires a <= b <= |s|
    ensures Scrub(Lower(s[a..b])) == Scrub(Lower(s))[a..b]
    ensures SpaceBetween(s, 0, a) ==> SpaceBetween(Scrub(Lower(s)), 0, a)
    ensures SpaceBetween(s, b, |s|) ==> SpaceBetween(Scrub(Lower(s)), b, |s|)
  {
  }

  /** Whitespace cut from either end of a transcript does not change its
      normal form. */
  lemma {:induction false} NormalizeSlice(s: string, a: nat, b: nat)
    requires a <= b <= |s|
    requires SpaceBetween(s, 0, a) && SpaceBetween(s, b, |s|)
    ensures Normalize(s[a..b]) == Normalize(s)
  {
    ScrubLowerSlice(s, a, b);
    TidySlice(Scrub(Lower(s)), a, b);
  }

  lemma {:induction false} TidySlice(y: string, a: nat, b: nat)
    requires a <= b <= |y|
    requires SpaceBetween(y, 0, a) && SpaceBetween(y, b, |y|)
    ensures Tidy(y[a..b]) == Tidy(y)
  {
    var w := y[a..];
    assert SpaceBetween(w, b - a, |w|) by {
      forall k | b - a <= k < |w|
        ensures IsSpace(w[k])
      {
        assert w[k] == y[a + k];
      }
    }
    TidyDropsTrailing(w, b - a);
    assert w[..b - a] == y[a..b];
    TidyDropsLeading(y, a);
  }

  lemma {:induction false} StripBounds(s: string)
    ensures var a := SkipLeading(s, 0);
      var b := SkipTrailing(s, a, |s|);
      Strip(s) == s[a..b] && SpaceBetween(s, 0, a) && SpaceBetween(s, b, |s|)
  {
    SkippedLeading(s, 0);
    SkippedTrailing(s, SkipLeading(s, 0), |s|);
  }

  /** Normalizing the stripped transcript, as the event loop does, gives the
      same text as normalizing the raw one. */
  lemma {:induction false} NormalizeStrip(s: string)
    ensures Normalize(Strip(s)) == Normalize(s)
  {
    StripBounds(s);
    var a := SkipLeading(s, 0);
    NormalizeSlice(s, a, SkipTrailing(s, a, |s|));
  }

  /* ---------------- words: a reference for the whitespace pass ---------------- */

  /** A word: a non-empty run of characters none of which is whitespace. */
  predicate IsWord(w: string) {
    |w| > 0 && forall i :: 0 <= i < |w| ==> !IsSpace(w[i])
  }

  /** The end of the run of non-whitespace characters that starts at i. */
  function WordEnd(s: string, i: nat): (j: nat)
    requires i <= |s|
    ensures i <= j <= |s|
    ensures j < |s| ==> IsSpace(s[j])
    ensures i < |s| && !IsSpace(s[i]) ==> i < j
    ensures forall k :: i <= k < j ==> !IsSpace(s[k])
    decreases |s| - i
  {
    if i < |s| && !IsSpace(s[i]) then WordEnd(s, i + 1) else i
  }

  /** The maximal runs of non-whitespace characters of s, in order. */
  function Words(s: string): (ws: seq<string>)
    ensures forall k :: 0 <= k < |ws| ==> IsWord(ws[k])
    decreases |s|
  {
    if |s| == 0 then []
    else if IsSpace(s[0]) then Words(s[1..])
    else
      var b := WordEnd(s, 0);
      [s[..b]] + Words(s[b..])
  }

  /** The words separated by one plain space each. */
  function Join(ws: seq<string>): string
    decreases |ws|
  {
    if |ws| == 0 then []
    else if |ws| == 1 then ws[0]
    else ws[0] + [' '] + Join(ws[1..])
  }

  lemma {:induction false} JoinCons(w: string, ws: seq<string>)
    ensures Join([w] + ws) == if ws == [] then w else w + [' '] + Join(ws)
  {
    assert ([w] + ws)[0] == w;
    assert ([w] + ws)[1..] == ws;
  }

  lemma {:induction false} JoinEmpty(ws: seq<string>)
    requires forall k :: 0 <= k < |ws| ==> IsWord(ws[k])
    ensures Join(ws) == [] <==> ws == []
  {
    if |ws| > 1 {
      assert |ws[0] + [' '] + Join(ws[1..])| > 0;
    } else if |ws| == 1 {
      assert IsWord(ws[0]);
    }
  }

  /** A word followed by nothing or by whitespace: its run ends where it
      does. */
  lemma {:induction false} WordsOfWordThen(w: string, c: string)
    requires IsWord(w)
    requires |c| == 0 || IsSpace(c[0])
    ensures Words(w + c) == [w] + Words(c)
  {
    var s := w + c;
    WordEndAfter(w, c, 0);
    assert s[..|w|] == w;
    assert s[|w|..] == c;
  }

  lemma {:induction false} WordEndAfter(w: string, c: string, i: nat)
    requires IsWord(w) && i <= |w|
    requires |c| == 0 || IsSpace(c[0])
    ensures WordEnd(w + c, i) == |w|
    decreases |w| - i
  {
    var s := w + c;
    if i < |w| {
      assert s[i] == w[i];
      WordEndAfter(w, c, i + 1);
    } else if i < |s| {
      assert s[i] == c[0];
    }
  }

  lemma {:induction false} WordsDropSpace(c: char, r: string)
    requires IsSpace(c)
    ensures Words([c] + r) == Words(r)
  {
    assert ([c] + r)[1..] == r;
  }

  /** The collapsing pass keeps the words of its input, in order. */
  lemma {:induction false} CollapseWords(s: string)
    ensures Words(Collapse(s)) == Words(s)
    decreases |s|
  {
    if |s| > 0 {
      if IsSpace(s[0]) {
        CollapseWords(s[1..]);
        if !(|s| > 1 && IsSpace(s[1])) {
          WordsDropSpace(' ', Collapse(s[1..]));
        }
      } else {
        var b := WordEnd(s, 0);
        var w := s[..b];
        var r := s[b..];
        assert s == w + r;
        CollapseWordThen(w, r);
        CollapseWords(r);
        var cr := Collapse(r);
        WordsOfWordThen(w, cr);
      }
    }
  }

  lemma HeadThen<T>(a: seq<T>, b: seq<T>)
    requires |a| > 0
    ensures a + b == [a[0]] + (a[1..] + b)
  {
  }

  /** A character that is not whitespace is copied by the collapsing pass. */
  lemma {:induction false} CollapseCons(c: char, t: string)
    requires !IsSpace(c)
    ensures Collapse([c] + t) == [c] + Collapse(t)
  {
    assert ([c] + t)[0] == c && ([c] + t)[1..] == t;
  }

  /** Collapsing a word followed by r copies the word and collapses r. */
  lemma {:induction false} CollapseWordThen(w: string, r: string)
    requires forall i :: 0 <= i < |w| ==> !IsSpace(w[i])
    ensures Collapse(w + r) == w + Collapse(r)
    ensures |r| > 0 && IsSpace(r[0]) ==> Collapse(r)[0] == ' '
    decreases |w|
  {
    if |w| > 0 {
      HeadThen(w, r);
      CollapseCons(w[0], w[1..] + r);
      CollapseWordThen(w[1..], r);
      HeadThen(w, Collapse(r));
    } else {
      assert w + r == r;
    }
  }

  /** A word is its own strip. */
  lemma {:induction false} StripWord(w: string)
    requires IsWord(w)
    ensures Strip(w) == w
  {
    assert SkipLeading(w, 0) == 0;
    assert SkipTrailing(w, 0, |w|) == |w|;
  }

  lemma {:induction false} SkipTrailingAfter(p: string, q: string, j: nat)
    requires |q| > 0 && !IsSpace(q[0])
    requires 1 <= j <= |q|
    ensures SkipTrailing(p + q, 0, |p| + j) == |p| + SkipTrailing(q, 0, j)
    decreases j
  {
    var s := p + q;
    assert s[|p| + j - 1] == q[j - 1];
    if j > 1 && IsSpace(q[j - 1]) {
      SkipTrailingAfter(p, q, j - 1);
    }
  }

  /** Stripping a text that starts with a non-whitespace prefix p and goes
      on with q, itself starting with non-whitespace, only strips q. */
  lemma {:induction false} StripAfter(p: string, q: string)
    requires |p| > 0 && !IsSpace(p[0])
    requires |q| > 0 && !IsSpace(q[0])
    ensures Strip(p + q) == p + Strip(q)
  {
    var s := p + q;
    assert s[0] == p[0];
    assert SkipLeading(s, 0) == 0;
    assert SkipLeading(q, 0) == 0;
    SkipTrailingAfter(p, q, |q|);
    var k := SkipTrailing(q, 0, |q|);
    assert s[0..|p| + k] == p + q[0..k];
  }

  /** A suffix of text with plain single spaces has plain single spaces. */
  lemma {:induction false} SpacedSuffix(c: string, i: nat)
    requires SingleSpaced(c) && PlainSpaced(c) && i <= |c|
    ensures SingleSpaced(c[i..]) && PlainSpaced(c[i..])
  {
    var q := c[i..];
    forall j: nat | j + 1 < |q|
      ensures !DoubleSpaceAt(q, j)
    {
      assert q[j] == c[i + j] && q[j + 1] == c[i + j + 1];
      assert !DoubleSpaceAt(c, i + j);
    }
    forall j | 0 <= j < |q| && IsSpace(q[j])
      ensures q[j] == ' '
    {
      assert q[j] == c[i + j];
    }
  }

  lemma {:induction false} WordsStartingWord(q: string)
    requires |q| > 0 && !IsSpace(q[0])
    ensures Words(q) != []
  {
  }

  /** The case of StripJoins where a word is followed by a space and more
      text. */
  lemma {:induction false} StripJoinsSep(w: string, q: string)
    requires IsWord(w) && |q| > 0 && !IsSpace(q[0])
    requires Strip(q) == Join(Words(q))
    ensures Strip(w + [' '] + q) == Join(Words(w + [' '] + q))
  {
    var r := [' '] + q;
    assert w + [' '] + q == w + r;
    WordsOfWordThen(w, r);
    WordsDropSpace(' ', q);
    WordsStartingWord(q);
    JoinCons(w, Words(q));
    StripAfter(w + [' '], q);
  }

  /** The case of StripJoins where a word is followed by at most one space. */
  lemma {:induction false} StripJoinsLast(w: string, r: string)
    requires IsWord(w) && (r == [] || r == [' '])
    ensures Strip(w + r) == Join(Words(w + r))
  {
    WordsOfWordThen(w, r);
    JoinCons(w, Words(r));
    StripWord(w);
    if r == [' '] {
      StripDropsTrailingSpace(w, ' ');
      WordsDropSpace(' ', []);
      assert [' '] + [] == r;
    } else {
      assert w + r == w;
    }
  }

  /** On text with plain single spaces, strip is joining the words. */
  lemma {:induction false} StripJoins(c: string)
    requires SingleSpaced(c) && PlainSpaced(c)
    ensures Strip(c) == Join(Words(c))
    decreases |c|
  {
    if |c| == 0 {
    } else if IsSpace(c[0]) {
      assert c == [c[0]] + c[1..];
      StripDropsLeadingSpace(c[0], c[1..]);
      SpacedSuffix(c, 1);
      StripJoins(c[1..]);
    } else {
      var b := WordEnd(c, 0);
      var w := c[..b];
      assert IsWord(w);
      if b + 1 >= |c| {
        assert c == w + c[b..];
        StripJoinsLast(w, c[b..]);
      } else {
        assert !DoubleSpaceAt(c, b);
        var q := c[b + 1..];
        assert c == w + [' '] + q;
        SpacedSuffix(c, b + 1);
        StripJoins(q);
        StripJoinsSep(w, q);
      }
    }
  }

  /** The last pass of `normalize`, `re.sub(r"\s+", " ", y).strip()`, joins
      the words of y with single spaces. */
  lemma {:induction false} TidyWords(y: string)
    ensures Tidy(y) == Join(Words(y))
  {
    CollapseWords(y);
    StripJoins(Collapse(y));
  }

  /** `normalize` is the words of the lower-cased, scrubbed text joined by
      single spaces: every character the scrubbing pass blanks out separates
      two words. */
  lemma {:induction false} NormalizeWords(text: string)
    ensures Normalize(text) == Join(Words(Scrub(Lower(text))))
  {
    TidyWords(Scrub(Lower(text)));
  }
}

=== FILE: wrappers.dfy ===
/** The Some/None datatype used for the session's "no intent yet" value,
    for an optional notification and for an optional termination reason. */
module Wrappers {

  datatype Option<+T> = None | Some(value: T)
}
